=== FILE: README.md ===
# voterreg, modelled in Dafny

voterreg matches the Monroe County tax roll against the Board of Elections
voter file so that it can find addresses with no registered voter. This
project models its core and proves properties of that model:

- **The address key** (`StreetAddress` in common.py). A key is the triple
  (city or zip, street, number).
  - The street name is canonicalised in two passes over its tokens:
    - The first pass moves direction words (`n`, `northwest`, ...) to the
      front and writes them out in full.
    - The second pass glues every token before the rightmost street-type
      qualifier into one word and abbreviates that qualifier through the
      USPS table.
  - House numbers get the half-address rewrite `<digits> 1/2` → `<digits>.5`.
- **Tax-roll records** (`MonroeCtRecord`). A record has 22 positional slots
  filled from a CSV row or copied from another record.
  - It supports `__str__`, `tuple`, `is_bulk` and `address`.
  - `BoERecord` is the 38-slot voter-file record.
- **House-number ranges** (`AddressRange`). A number such as `12-18`, `3&5`
  or `7/9` becomes a range. Iterating it yields one copy of the record per
  house number: every second integer from the lower endpoint, plus any
  fractional endpoint.
  - `addressRecords` reads the roll as its header followed by one plain
    record or range per row.
- **Exclusion** (exclusion.py). Rows are normalised field by field, and the
  result is the set of universe rows that are not registered.
- **Duplicate counting** (redundant.py). The program counts the universe rows
  whose normalised tuple repeats an earlier row.

Modules follow the program:

| module | covers |
|---|---|
| `Text` | the `str` operations the code uses |
| `Numerals` | `str(int)` and the part of `float(str)` that house numbers need |
| `HalfAddress` | the `HALFPATTERN` rewrite |
| `Abbreviations` | the abbreviation table, passed in as a `map` |
| `Street` | `StreetAddress` |
| `Records` | the two record classes |
| `Ranges` | `AddressRange` and `addressRecords` |
| `Exclusion` | exclusion.py |
| `Redundant` | redundant.py |

Wherever the source updates state step by step, the model does too.

- `normalize` is a method with the source's two index loops, including the
  `break`. It is proved equal to the functional definition `Normalized`, and
  the lemmas about the result are stated on `Normalized`.
- The records are classes whose slot list is filled by a loop and updated in
  place.
- The exclusion and counting scripts are loops over sets.

Where the code and its written description disagree, the model follows the
code:

- The tax-roll record has 22 slots (common.py:68-72), not 21.
- `N Herald Circle` normalises to `northherald` followed by the
  abbreviation of `circle`. The comment at common.py:34 says
  `heraldcircle north`.
- Street normalisation is not idempotent. Its first pass alone already is
  not: `main n s` becomes `south main n`, and a second pass gives
  `south north main`. For `normalize` as a whole the outcome depends on the
  abbreviation table, so the counterexample is proved for every table that
  mentions neither the name nor the directions involved. With a table in
  which `n` is a qualifier, the second loop folds `south main` into one
  token instead. The half-address rewrite is not idempotent either:
  `1 1/ 1/` becomes `1.5 1/`, then `1.5.5`. These counterexamples are proved.
- `__len__` does not count what `__iter__` yields, and `self.ent` is never
  set. See Findings.

## Model

| member | source | states |
|---|---|---|
| HalfAddress.HalfSub | common.py:7 | `HALFPATTERN.sub(r'\1.5', nr)` (applied at common.py:14 and :82) scans left to right, replacing each match by its digits and `.5` and copying every other character; the result is never longer than the input, and a number without `/` is returned unchanged |
| HalfAddress.HalfSubIdentityIff | common.py:7 | a house number is left unchanged exactly when no digit run in it is followed by ` 1/` |
| HalfAddress.HalfSubShrinks | common.py:7 | the rewrite never lengthens a number, and it shortens every number that contains a match |
| HalfAddress.HalfSubFull | common.py:7 | `<digits> 1/2` is replaced by `<digits>.5`, and the scan resumes right after the match |
| HalfAddress.HalfSubShort | common.py:7 | the trailing `2` is optional: `<digits> 1/` not followed by `2` is replaced by `<digits>.5` too |
| HalfAddress.TenAndAHalf | common.py:14 | `10 1/2` becomes `10.5` |
| HalfAddress.DigitsUnchanged | common.py:14 | a plain digit string such as `10` passes through unchanged |
| HalfAddress.HalfSubNotIdempotent | common.py:82 | for every digit `c`, `c 1/ 1/` becomes `c.5 1/`, and rewriting that again gives `c.5.5`, so stored numbers that are rewritten a second time can change |
| HalfAddress.CopyFirst | common.py:7 | a match can only begin at a digit, so a leading non-digit is copied and the scan moves on by one |
| Street.DirectionsAreCardinalKeysAndValues | common.py:19-30 | the direction set is exactly the abbreviations of `_cardinal` together with their full words |
| Street.MovePassesOver | common.py:38-46 | a last token that is not a direction stays last and unchanged after the first pass |
| Street.MoveSkipsLeftNeighbour | common.py:38-46 | a last token that is a direction goes to the front, written out in full, and the token just left of it is never examined |
| Street.MoveDirections | common.py:38-46 | the first loop, over the indices fixed before it starts, moves each direction it meets to the front in full; it keeps the token count, and the tokens that are not directions keep their relative order |
| Street.LastDirectionLeadsExpanded | common.py:41-46 | when the last token is a direction, the first pass leaves a full direction word at index 0 |
| Street.NormalizeNotIdempotent | common.py:35-58 | for a name followed by two directions, when the table mentions neither the name, the first direction nor the full words of either, `normalize` gives `D2 m d1` (`south main n`), and normalising that gives `D2 D1 m` (`south north main`), which differs |
| Street.MoveDirectionsNotIdempotent | common.py:38-46 | for any name `m` followed by two directions `d1 d2` (such as `main n s`), the first pass gives `D2 m d1` (`south main n`), and a second pass gives `D2 D1 m` (`south north main`), where `D` is the full word |
| Street.RightmostIn | common.py:48-51 | finds the index of the rightmost qualifier, with no qualifier after it, or reports that there is none |
| Street.CollapseAt | common.py:48-56 | at the rightmost qualifier `i`, the result is the `''.join` of the tokens before `i`, then the qualifier abbreviated, then the later tokens unchanged |
| Street.Collapse | common.py:48-56 | the second loop: with no qualifier the tokens are unchanged; otherwise the tokens before the rightmost qualifier `i` become one token (`len - i + 1` remain), no characters are lost or reordered, and only the qualifier is abbreviated |
| Street.LeadingQualifierGivesLeadingSpace | common.py:52-58 | when the rightmost qualifier is the first token, the folded prefix is empty and the normalised street starts with a space |
| Street.ThreeWordTokens | common.py:36-37 | three words joined by single spaces tokenise into the three words, lower-cased |
| Street.DirectionNameQualifier | common.py:34-58 | `<direction> <name> <qualifier>`, such as `N Herald Circle`, normalises to the full direction glued to the name, a space, then the table's form of the qualifier (`northherald` and the form of `circle`) |
| Street.Normalized | common.py:35-58 | `normalize` as a function: tokens, first pass, second pass, space-joined; a street without tokens normalises to the empty string |
| Street.FoldQualifier | common.py:48-56 | the second loop, with its `break` and the in-place abbreviation of `tokens[1]`, computes the fold of the rightmost qualifier |
| Street.Normalize | common.py:35-58 | the two-loop method returns the normalised street: lower-cased, stripped and split, directions moved, rightmost qualifier folded, then space-joined |
| Street.StreetAddress.Tuple | common.py:16-17 | `tuple()` is `(city, street, number)`, from which the key can be rebuilt |
| Street.AddressOf | common.py:11-14 | the key keeps the city as given; its number is never longer than `nr` and equals `nr` when `nr` has no `/`; a blank street gives the empty street |
| Street.KeysEqualIffTuplesEqual | common.py:16-17 | two address keys are equal exactly when their `(city, street, number)` tuples are |
| Street.NewStreetAddress | common.py:11-14 | the key holds the city unchanged, the normalised street and the half-substituted number |
| Text.Lower | common.py:36 | `str.lower()` keeps the length and maps every character through the ASCII lower-case mapping (also common.py:97 and exclusion.py:9) |
| Text.Strip | common.py:36 | `str.strip()` never lengthens, neither end of the result is whitespace, and the result is empty exactly when the string is blank |
| Text.Split | common.py:37 | `str.split()` yields tokens that are each non-empty and free of whitespace |
| Text.SplitKeepsText | common.py:37 | `split()` loses and reorders no character other than whitespace: the tokens glued together are the string's non-whitespace characters in order (also exclusion.py:10) |
| Text.Join | common.py:58 | `sep.join(ws)` of no strings is empty (also common.py:52 and exclusion.py:11) |
| Text.JoinEnds | common.py:58 | a joined string starts with the first string and ends with the last |
| Text.Contains | common.py:97 | the `in` test on strings holds exactly when the pattern occurs at some position |
| Abbreviations.Apply | common.py:54-55 | the table lookup `ABBV[t] if t in ABBV else t` keeps a token or replaces it by something the table mentions, and always keeps a token the table does not mention (also exclusion.py:10) |
| Abbreviations.Mentions | common.py:31 | `_qualifiers` holds every key and every value of the table, and nothing else |
| Text.SplitStrip | common.py:36-37 | stripping before splitting changes no token |
| Text.SplitJoin | exclusion.py:10-11 | space-joined single words split back into the same words |
| Records.SlotPositions | common.py:68-72 | there are 22 slots, and `st_nbr`, `gis_st_name`, `prop_desc`, `par_zip` and `city` sit at the positions the model reads |
| Records.Filled | common.py:74-82 | a constructed record holds the first 22 row values in slot order, every one unchanged except `st_nbr`, which is half-substituted |
| Records.MonroeCtRecord.FromRow | common.py:74-82 | building a record from a row fills the slots in order from the row, then rewrites `st_nbr` |
| Records.MonroeCtRecord.Copy | common.py:75-82 | copy-construction copies every slot, then rewrites `st_nbr` once more |
| Records.MonroeCtRecord.SetStNbr | common.py:147 | assigning `st_nbr` changes that slot and no other |
| Records.MonroeCtRecord.Str | common.py:92-94 | `str(record)` starts with `st_nbr` and a space, ends with `, NY, USA`, and has the length of the four pieces and separators |
| Records.MonroeCtRecord.Tuple | common.py:87-90 | the tuple is the 22 slot values in order, followed by `str(record)` |
| Records.TupleDeterminesSlots | common.py:87-94 | two records have equal tuples exactly when they hold the same slot values |
| Records.MonroeCtRecord.IsBulk | common.py:96-97 | `is_bulk()` holds exactly when `family res` occurs nowhere in the lower-cased `prop_desc` |
| Records.FamilyResIsNotBulk | common.py:96-97 | a `prop_desc` containing `family res` in any letter case makes the record not bulk |
| Records.MonroeCtRecord.Address | common.py:84-85 | the key is built from `par_zip`, `gis_st_name` and `st_nbr` |
| Records.HalfNumberAddress | common.py:82-85 | a row numbered `<n> 1/2` gets address number `<n>.5`, and the second rewrite in `StreetAddress` leaves it alone |
| Records.CopyThenSet | common.py:146-147 | a copy whose `st_nbr` is then overwritten holds the entry's values with only `st_nbr` replaced |
| Ranges.CopiesWithNumbers | common.py:145-148 | the loop of `__iter__` makes one fresh copy of the entry per number, equal to the entry except that `st_nbr` is `str(n)` |
| Records.BoERecord.FromRow | common.py:110-117 | the 38 slots are the first 38 row values, in order |
| Records.BoERecord.Copy | common.py:111-113 | copy-construction copies every slot |
| Records.BoeRecords | common.py:151-153 | one voter record per row, header included, each holding its row's first 38 values |
| Numerals.NatToString | common.py:147 | `str(n)` of a non-negative `int` is a non-empty run of digits |
| Numerals.IntToString | common.py:147 | `str(i)` is non-empty, starts with `-` exactly when `i` is negative, and is all digits otherwise |
| Numerals.ParseDecimal | common.py:168 | `float(s)` on plain decimals: any value it accepts is non-negative, and a blank string raises `ValueError` (`None`) |
| Numerals.ParseNatToString | common.py:168 | `float(str(n))` is `n` for every non-negative integer |
| Numerals.ParseHalfNumeral | common.py:168 | `float(str(n) + ".5")` is `n + 0.5` |
| Ranges.Trunc | common.py:139 | `int(x)` truncates toward zero and equals the floor for non-negative `x` |
| Ranges.Steps | common.py:139 | `range(lo, hi, 2)` has `(hi - lo + 1) // 2` elements when `lo < hi` (none otherwise), and its k-th element is `lo + 2k` |
| Ranges.NewRange | common.py:121-125 | the endpoints are stored in order (`start <= end`), as the two given values |
| Ranges.NewRangeSymmetric | common.py:122-123 | constructing with (18, 12) and with (12, 18) gives the same range |
| Ranges.Numbers | common.py:137-143 | the numbers `__iter__` walks: every whole one lies in `[int(start), int(end))`, and the only fractions are endpoints that are not whole |
| Ranges.AddressRange.Iterate | common.py:137-148 | iteration yields one fresh copy of the entry record per number (fractional `start`, then the range steps, then fractional `end`), with only `st_nbr` replaced by `str(n)` |
| Ranges.AddressRange.Len | common.py:127-135 | the corrected length equals the number of records the iteration yields |
| Ranges.LenAsWritten | common.py:127-135 | `__len__` as written; for ordered non-negative endpoints it is never negative and never more than the number of records yielded |
| Ranges.LenAsWrittenIgnoresFractions | common.py:127-135 | `__len__` as written always returns `(floor(end) - floor(start)) // 2` |
| Ranges.LenAsWrittenAgreesIff | common.py:127-148 | `__len__` agrees with the iteration count exactly when both endpoints are whole and an even distance apart |
| Ranges.TwelveToSeventeen | common.py:127-148 | [12, 17] has length 2 but yields 12, 14 and 16 |
| Ranges.ElevenAndAHalfToSeventeen | common.py:137-143 | [11.5, 17] yields 11.5, 11, 13, 15, in that unsorted order |
| Ranges.IterateAsWritten | common.py:137-146 | iterating as written finishes only when the number list is empty, which needs both endpoints whole; otherwise it raises at `self.ent` |
| Ranges.DistinctEndpointsRaise | common.py:121-146 | as written, iterating any range whose endpoints differ reaches the unset `self.ent` |
| Ranges.EqualWholeEndpointsFinish | common.py:137-146 | as written, a range with equal whole endpoints yields nothing and does not fail |
| Ranges.SplitDelims | common.py:163-167 | `re.split('[-&/]', s)` gives one more piece than there are delimiters, and no piece contains a delimiter |
| Ranges.SplitNoDelims | common.py:167 | a number without delimiters is a single piece |
| Ranges.SplitAtDelim | common.py:167 | splitting cuts at the first delimiter: the piece before it, then the pieces of the rest |
| Ranges.Classify | common.py:167-171 | a number is a range exactly when it has one delimiter and both pieces parse as floats, and the endpoints are then non-negative |
| Ranges.ClassifyWholeRange | common.py:163-169 | `<m>-<n>`, `<m>&<n>` and `<m>/<n>` are ranges from `m` to `n` |
| Ranges.HalfNumberIsPlain | common.py:165-171 | `<n> 1/2` is a plain record, because the constructor rewrites it to `<n>.5` before the split |
| Ranges.AddressRecords | common.py:156-171 | the header row, then exactly one item per data row, in order: the row's fresh record, as a range when its number classifies as one |
| Exclusion.NormalizeField | exclusion.py:8-11 | `normalize(field)`: lower-case, strip, split, abbreviate each token, space-join; a field without tokens gives the empty string |
| Exclusion.NormalizeBlank | exclusion.py:8-11 | a blank or whitespace-only field normalises to the empty string |
| Exclusion.NormalizeKeepsTokens | exclusion.py:8-11 | when abbreviations are single words, the normalised field splits into the field's tokens, each abbreviated, in the same order and number |
| Exclusion.NormalizeIgnoresCase | exclusion.py:9 | letter case makes no difference to the normalised field |
| Exclusion.NormalizeIgnoresPadding | exclusion.py:9-11 | whitespace around a field makes no difference |
| Exclusion.NormRow | exclusion.py:18 | a stored row is the tuple of its fields, each normalised |
| Exclusion.SameTupleAfterNormalizing | exclusion.py:18 | rows whose fields differ only in case or whitespace become the same tuple |
| Exclusion.Collect | exclusion.py:14-24 | the set holds the normalised form of every row after the header, and nothing else |
| Exclusion.Exclude | exclusion.py:14-26 | a tuple is in FINAL exactly when some universe data row normalises to it and no registered data row does |
| Exclusion.WriteRows | exclusion.py:28-31 | every FINAL row is written exactly once |
| Redundant.CountRedundant | redundant.py:8-16 | skipping the header, U is the set of distinct normalised rows, REDUNDANT counts the rows that repeat an earlier one, and REDUNDANT plus the size of U is the number of data rows |
| Redundant.RepeatsPlusDistinct | redundant.py:13-16 | every row is either the first occurrence of its tuple or a repeat, so repeats and distinct tuples add up to the row count |
| Redundant.RepeatsMonotone | redundant.py:13-14 | the count never decreases as more rows are read |
| Redundant.FirstOccurrenceNotCounted | redundant.py:13-16 | the first occurrence of a tuple is never counted |

## Left out

- geocode.py is not part of this model. It is a network client for a geocoding service.
- deltaroll.py is not part of this model. It is floating-point histogram printing.
- CSV parsing, file opening and writing, and `print` are not modelled. Input files are sequences of rows, each a sequence of fields, and the written file is a sequence of rows.
- The contents of `usps_abbv.ABBREVIATIONS` are not modelled. The table is a parameter, and nothing is assumed about its keys or values.
- Numerals.ParseDecimal: models `float()` only for plain non-negative decimal numerals (`12`, `12.`, `.5`, `11.5`) with surrounding whitespace. Signs, exponents, underscores, `inf` and `nan`, which Python also accepts, classify as plain records here rather than as ranges. The model reads only ASCII digits, while `float()` also accepts other Unicode decimal digits. It keeps the exact decimal value, while `float()` rounds to the nearest binary64 value: `12.0000000000000001` is the whole number 12 in Python but a fraction here, and integers above 2^53 are not rounded, so for such endpoints the numbers walked and the count can differ from Python's.
- Ranges.NumStr: `str()` of a float endpoint is the parameter `fmt`, because Python's shortest round-trip float formatting is not modelled. Integers from the range use `str(int)` exactly.
- Text.IsSpace: only ASCII whitespace is modelled, and `Text.Lower` only maps ASCII letters. The rest of Unicode is treated as ordinary characters.
- Street.KeysEqualIffTuplesEqual: keys are compared as tuples. The source compares their hashes, and hash collisions are not modelled.
- Records.MonroeCtRecord.FromRow: requires at least 22 values, and Records.BoERecord.FromRow requires at least 38. The `StopIteration` raised on a shorter row is not modelled.
- Ranges.AddressRecords: requires a header row, and Exclusion.Collect and Redundant.CountRedundant do as well. The failure of `next()` on an empty file is not modelled.
- Generators are modelled as returning their whole output at once, so laziness is not captured. The as-written error of a range is modelled as the outcome of iterating it, not as a partially consumed generator.
- Exclusion.WriteRows: writes FINAL in an order left open, because Python's set iteration order is not modelled.
- The record attributes are modelled as one slot list indexed by `__slots__` position, not as named attributes. `getattr` and `setattr` by name are represented by the position.

## Findings

| source | as written | input that shows it | evidently intended | confidence | as-written member | corrected member |
|---|---|---|---|---|---|---|
| common.py:127-135 | `__len__` floors both endpoints first, so the two fractional-endpoint tests never fire, and `(b - a) // 2` rounds an odd step count down | the range [12, 17]: `len` is 2, but 12, 14 and 16 are yielded | the number of records `__iter__` yields | not executed | Ranges.LenAsWrittenAgreesIff | Ranges.AddressRange.Len |
| common.py:121-146 | `__init__` never stores `ent`, so `__iter__` fails at `self.ent` on its first number | the house number `12-14`, or any range whose endpoints differ | each range keeps its entry record and yields copies of it | not executed | Ranges.DistinctEndpointsRaise | Ranges.AddressRange.Iterate |

=== FILE: Abbreviations.dfy ===
/** The USPS abbreviation table `ABBREVIATIONS` is not part of this model:
    every operation that uses it takes it as a parameter, and nothing is
    assumed about its contents or the direction of its mapping. */
module Abbreviations {

  type Table = map<string, string>

  /** `table[t] if t in table else t`: a token is either kept or replaced by
      something the table mentions, and a token the table does not mention
      is always kept. */
  function Apply(table: Table, t: string): (r: string)
    ensures r == t || r in Mentions(table)
    ensures t !in Mentions(table) ==> r == t
  {
    if t in table then table[t] else t
  }

  /** Every string the table mentions as a key or as a value: the street-type
      qualifiers of `StreetAddress._qualifiers`. */
  function Mentions(table: Table): (m: set<string>)
    ensures forall t :: t in table ==> t in m && table[t] in m
    ensures forall x :: x in m ==> x in table || exists t :: t in table && table[t] == x
  {
    table.Keys + table.Values
  }
}

=== FILE: Exclusion.dfy ===
/** exclusion.py: the field normaliser and the set difference of the voter
    universe and the registered voters, over rows given as sequences of
    fields (the CSV files themselves are not part of this model). */
module Exclusion {
  import opened Text
  import opened Abbreviations

  /** A CSV row; a normalised row is the source's tuple of normalised fields. */
  type Row = seq<string>

  function AbbreviateAll(table: Table, ws: seq<string>): (r: seq<string>)
    ensures |r| == |ws| && forall k :: 0 <= k < |ws| ==> r[k] == Apply(table, ws[k])
  {
    seq(|ws|, k requires 0 <= k < |ws| => Apply(table, ws[k]))
  }

  /** `normalize(field)` (exclusion.py, lines 8-11): lower-case, strip,
      split on whitespace, abbreviate token by token, join with spaces. A
      field without tokens normalises to the empty string. */
  function NormalizeField(field: string, table: Table): (r: string)
    ensures Split(Lower(field)) == [] ==> r == ""
  {
    SplitStrip(Lower(field));
    Join(AbbreviateAll(table, Split(Strip(Lower(field)))), " ")
  }

  /** A blank or whitespace-only field normalises to the empty string. */
  lemma NormalizeBlank(field: string, table: Table)
    requires forall i :: 0 <= i < |field| ==> IsSpace(field[i])
    ensures NormalizeField(field, table) == ""
  {
    var low := Lower(field);
    SplitStrip(low);
    SplitBlank(low);
  }

  /** When the table's abbreviations are single words, splitting the result
      gives back the field's tokens, each abbreviated: the count and the
      order of the tokens are kept. */
  lemma NormalizeKeepsTokens(field: string, table: Table)
    requires forall t :: t in table ==> IsWord(table[t])
    ensures Split(NormalizeField(field, table)) == AbbreviateAll(table, Split(Lower(field)))
  {
    var low := Lower(field);
    SplitStrip(low);
    SplitJoin(AbbreviateAll(table, Split(low)));
  }

  /** Letter case makes no difference. */
  lemma NormalizeIgnoresCase(field: string, table: Table)
    ensures NormalizeField(Lower(field), table) == NormalizeField(field, table)
  {
    LowerIdempotent(field);
  }

  lemma {:induction false} SplitLeadingBlanks(p: string, s: string)
    requires forall i :: 0 <= i < |p| ==> IsSpace(p[i])
    ensures Split(p + s) == Split(s)
  {
    if p == [] {
      assert p + s == s;
    } else {
      assert p + s == [p[0]] + (p[1..] + s);
      SplitSkipsLeadingSpace(p[0], p[1..] + s);
      SplitLeadingBlanks(p[1..], s);
    }
  }

  lemma {:induction false} SplitTrailingBlanks(s: string, q: string)
    requires forall i :: 0 <= i < |q| ==> IsSpace(q[i])
    ensures Split(s + q) == Split(s)
    decreases |q|
  {
    if q == [] {
      assert s + q == s;
    } else {
      var init := q[..|q| - 1];
      assert s + q == (s + init) + [q[|q| - 1]];
      SplitSkipsTrailingSpace(s + init, q[|q| - 1]);
      SplitTrailingBlanks(s, init);
    }
  }

  /** Whitespace around a field makes no difference. */
  lemma NormalizeIgnoresPadding(pre: string, field: string, post: string, table: Table)
    requires forall i :: 0 <= i < |pre| ==> IsSpace(pre[i])
    requires forall i :: 0 <= i < |post| ==> IsSpace(post[i])
    ensures NormalizeField(pre + field + post, table) == NormalizeField(field, table)
  {
    var lp, lf, lq := Lower(pre), Lower(field), Lower(post);
    LowerAppend(pre + field, post);
    LowerAppend(pre, field);
    SplitStrip(lp + lf + lq);
    SplitStrip(lf);
    SplitTrailingBlanks(lp + lf, lq);
    SplitLeadingBlanks(lp, lf);
  }

  /** `tuple(map(normalize, row))`. */
  function NormRow(row: Row, table: Table): (r: Row)
    ensures |r| == |row| && forall k :: 0 <= k < |row| ==> r[k] == NormalizeField(row[k], table)
  {
    seq(|row|, k requires 0 <= k < |row| => NormalizeField(row[k], table))
  }

  /** Rows whose fields agree up to letter case and surrounding or repeated
      whitespace become the same tuple. */
  lemma SameTupleAfterNormalizing(r1: Row, r2: Row, table: Table)
    requires |r1| == |r2|
    requires forall k :: 0 <= k < |r1| ==> Split(Lower(r1[k])) == Split(Lower(r2[k]))
    ensures NormRow(r1, table) == NormRow(r2, table)
  {
    forall k | 0 <= k < |r1|
      ensures NormalizeField(r1[k], table) == NormalizeField(r2[k], table)
    {
      SplitStrip(Lower(r1[k]));
      SplitStrip(Lower(r2[k]));
    }
  }

  /** The normalised form of every row, in order. */
  function NormRows(rows: seq<Row>, table: Table): (r: seq<Row>)
    ensures |r| == |rows| && forall k :: 0 <= k < |rows| ==> r[k] == NormRow(rows[k], table)
  {
    seq(|rows|, k requires 0 <= k < |rows| => NormRow(rows[k], table))
  }

  lemma NormRowsStep(rows: seq<Row>, table: Table, i: nat)
    requires 1 <= i < |rows|
    ensures NormRows(rows[1..i + 1], table) == NormRows(rows[1..i], table) + [NormRow(rows[i], table)]
  {
  }

  function Elements<T>(xs: seq<T>): set<T> {
    set x | x in xs
  }

  /** The loop that reads a file into REGISTERED or UNIVERSE (exclusion.py,
      lines 14-24): the header row is discarded and every other row is added
      in normalised form. */
  method Collect(rows: seq<Row>, table: Table) returns (s: set<Row>)
    requires |rows| >= 1
    ensures s == Elements(NormRows(rows[1..], table))
    ensures forall x :: x in s <==> exists k :: 1 <= k < |rows| && NormRow(rows[k], table) == x
  {
    s := {};
    for i := 1 to |rows|
      invariant s == Elements(NormRows(rows[1..i], table))
    {
      NormRowsStep(rows, table, i);
      s := s + {NormRow(rows[i], table)};
    }
    assert rows[1..|rows|] == rows[1..];
  }

  /** `FINAL = UNIVERSE - REGISTERED` (exclusion.py, line 26). */
  method Exclude(registered: seq<Row>, universe: seq<Row>, table: Table) returns (final: set<Row>)
    requires |registered| >= 1 && |universe| >= 1
    ensures forall x :: x in final <==>
      (exists k :: 1 <= k < |universe| && NormRow(universe[k], table) == x) &&
      !(exists k :: 1 <= k < |registered| && NormRow(registered[k], table) == x)
  {
    var reg := Collect(registered, table);
    var uni := Collect(universe, table);
    final := uni - reg;
  }

  /** A sequence without repeats has as many elements as entries. */
  lemma {:induction false} DistinctLength<T>(xs: seq<T>)
    requires forall i, j :: 0 <= i < j < |xs| ==> xs[i] != xs[j]
    ensures |Elements(xs)| == |xs|
  {
    if xs != [] {
      var init := xs[..|xs| - 1];
      DistinctLength(init);
      assert Elements(xs) == Elements(init) + {xs[|xs| - 1]};
    }
  }

  /** The writing loop (exclusion.py, lines 28-31): every row of FINAL is
      written exactly once, in an order the model leaves open. */
  method WriteRows(final: set<Row>) returns (out: seq<Row>)
    ensures Elements(out) == final && |out| == |final|
    ensures forall i, j :: 0 <= i < j < |out| ==> out[i] != out[j]
  {
    out := [];
    var remaining := final;
    while remaining != {}
      invariant remaining <= final
      invariant Elements(out) == final - remaining
      invariant forall i, j :: 0 <= i < j < |out| ==> out[i] != out[j]
      decreases |remaining|
    {
      var row :| row in remaining;
      assert Elements(out + [row]) == Elements(out) + {row};
      out := out + [row];
      remaining := remaining - {row};
    }
    DistinctLength(out);
  }
}

=== FILE: HalfAddress.dfy ===
/** The half-address rewrite `re.sub(HALFPATTERN, r'\1.5', nr)` with
    `HALFPATTERN = ([0-9]+) 1/2?` (common.py, lines 7, 14 and 82): every
    leftmost non-overlapping match becomes its digits followed by `.5`. */
module HalfAddress {
  import opened Text
  import opened Numerals

  /** Length of the match of `([0-9]+) 1/2?` that begins at `s[0]`, or 0
      when no match begins there. The digit run is greedy and can only end
      where a non-digit follows, so a match exists iff the whole leading digit
      run is followed by ` 1/`; the optional `2` is taken when present. */
  function MatchLength(s: string): (m: nat)
    ensures m <= |s|
    ensures m > 0 ==> 0 < LeadingDigits(s) && LeadingDigits(s) + 3 <= m
  {
    var k := LeadingDigits(s);
    if k > 0 && k + 3 <= |s| && s[k..k + 3] == " 1/" then
      if k + 3 < |s| && s[k + 3] == '2' then k + 4 else k + 3
    else 0
  }

  /** The substitution: scan left to right, replace each match, copy every
      other character. */
  function HalfSub(s: string): (r: string)
    ensures |r| <= |s|
    ensures '/' !in s ==> r == s
    decreases |s|
  {
    if s == [] then []
    else if MatchLength(s) > 0 then
      var k := LeadingDigits(s);
      assert s[k + 2] == s[k..k + 3][2] == '/';
      s[..k] + ".5" + HalfSub(s[MatchLength(s)..])
    else
      assert s == [s[0]] + s[1..];
      [s[0]] + HalfSub(s[1..])
  }

  /** A digit immediately followed by ` 1/` starts at index `i`: the shape
      every match ends with. */
  predicate MarkerAt(s: string, i: int) {
    0 <= i && i + 4 <= |s| && IsDigit(s[i]) && s[i + 1..i + 4] == " 1/"
  }

  predicate HasMarker(s: string) {
    exists i :: 0 <= i < |s| && MarkerAt(s, i)
  }

  lemma MarkerShift(s: string)
    requires s != []
    ensures HasMarker(s[1..]) ==> HasMarker(s)
    ensures HasMarker(s) && !MarkerAt(s, 0) ==> HasMarker(s[1..])
  {
    if HasMarker(s[1..]) {
      var i :| 0 <= i < |s[1..]| && MarkerAt(s[1..], i);
      assert s[1..][i + 1..i + 4] == s[i + 2..i + 5];
      assert MarkerAt(s, i + 1);
    }
    if HasMarker(s) && !MarkerAt(s, 0) {
      var i :| 0 <= i < |s| && MarkerAt(s, i);
      assert s[1..][i..i + 3] == s[i + 1..i + 4];
      assert MarkerAt(s[1..], i - 1);
    }
  }

  /** A match starts at `s[0]` exactly when a marker sits at the end of the
      leading digit run. */
  lemma MatchMeansMarker(s: string)
    requires MatchLength(s) > 0
    ensures MarkerAt(s, LeadingDigits(s) - 1)
  {
    var k := LeadingDigits(s);
    assert s[..k][k - 1] == s[k - 1];
  }

  lemma MarkerAtStartMatches(s: string)
    requires MarkerAt(s, 0)
    ensures MatchLength(s) > 0
  {
    assert s[1] == ' ';
    LeadingDigitsOf(s[..1], s[1..]);
    assert s[..1] + s[1..] == s;
  }

  /** The substitution never lengthens a string, and it shortens every
      string that contains a match. */
  lemma {:induction false} HalfSubShrinks(s: string)
    ensures |HalfSub(s)| <= |s|
    ensures HasMarker(s) ==> |HalfSub(s)| < |s|
    decreases |s|
  {
    if s != [] {
      var m := MatchLength(s);
      if m > 0 {
        HalfSubShrinks(s[m..]);
      } else {
        HalfSubShrinks(s[1..]);
        if HasMarker(s) {
          if MarkerAt(s, 0) {
            MarkerAtStartMatches(s);
          }
          MarkerShift(s);
        }
      }
    }
  }

  /** A string is left unchanged exactly when no digit run in it is followed
      by ` 1/`. */
  lemma {:induction false} HalfSubIdentityIff(s: string)
    ensures HalfSub(s) == s <==> !HasMarker(s)
    decreases |s|
  {
    HalfSubShrinks(s);
    if s != [] && !HasMarker(s) {
      if MatchLength(s) > 0 {
        MatchMeansMarker(s);
      }
      MarkerShift(s);
      HalfSubIdentityIff(s[1..]);
      assert [s[0]] + s[1..] == s;
    }
  }

  /** A match of `<digits> 1/2` is rewritten to `<digits>.5` and the scan
      resumes right after it. */
  lemma HalfSubFull(d: string, rest: string)
    requires d != [] && AllDigits(d)
    ensures HalfSub(d + " 1/2" + rest) == d + ".5" + HalfSub(rest)
  {
    var s := d + " 1/2" + rest;
    LeadingDigitsOf(d, " 1/2" + rest);
    assert s == d + (" 1/2" + rest);
    assert s[|d|..|d| + 3] == " 1/" && s[|d| + 3] == '2';
    assert MatchLength(s) == |d| + 4;
    assert s[..|d|] == d;
    assert s[|d| + 4..] == rest;
  }

  /** A match of `<digits> 1/` not followed by `2` is rewritten the same way:
      the `2` of the pattern is optional. */
  lemma HalfSubShort(d: string, rest: string)
    requires d != [] && AllDigits(d)
    requires rest == [] || rest[0] != '2'
    ensures HalfSub(d + " 1/" + rest) == d + ".5" + HalfSub(rest)
  {
    var s := d + " 1/" + rest;
    LeadingDigitsOf(d, " 1/" + rest);
    assert s == d + (" 1/" + rest);
    var k := |d|;
    assert s[k..k + 3] == " 1/";
    assert k + 3 < |s| ==> s[k + 3] == rest[0];
    assert MatchLength(s) == k + 3;
    assert s[..k] == d;
    assert s[k + 3..] == rest;
  }

  /** `10 1/2` becomes `10.5`. */
  lemma TenAndAHalf()
    ensures HalfSub("10 1/2") == "10.5"
  {
    var d, t := "10", " 1/2";
    calc {
      HalfSub("10 1/2");
      { assert "10 1/2" == d + t + ""; }
      HalfSub(d + t + "");
      { HalfSubFull(d, ""); }
      d + ".5" + HalfSub("");
      "10.5";
    }
  }

  /** A plain number such as `10` passes through unchanged. */
  lemma DigitsUnchanged(d: string)
    requires AllDigits(d)
    ensures HalfSub(d) == d
  {
    forall i | 0 <= i < |d| ensures !MarkerAt(d, i) {
      if i + 4 <= |d| {
        assert d[i + 1..i + 4][0] == d[i + 1];
      }
    }
    HalfSubIdentityIff(d);
  }

  lemma NoMarkerInSlashTail()
    ensures HalfSub(" 1/") == " 1/"
  {
    forall i | 0 <= i < 3 ensures !MarkerAt(" 1/", i) {
    }
    HalfSubIdentityIff(" 1/");
  }

  lemma NoMatchBeforeOther(d: string, t: string)
    requires AllDigits(d) && d != [] && t != [] && t[0] != ' ' && !IsDigit(t[0])
    ensures MatchLength(d + t) == 0
  {
    var s := d + t;
    var k := |d|;
    LeadingDigitsOf(d, t);
    assert k + 3 <= |s| ==> s[k..k + 3][0] == t[0];
  }

  /** A match begins with a digit, so a first character that is not a digit
      is copied and the scan moves on by one. */
  lemma CopyFirst(s: string)
    requires s != [] && !IsDigit(s[0])
    ensures HalfSub(s) == [s[0]] + HalfSub(s[1..])
  {
  }

  /** The rewrite is not idempotent: for any digit `c`, `c 1/ 1/` becomes
      `c.5 1/`, which contains a new match and becomes `c.5.5`, so
      re-substituting a stored house number (as `MonroeCtRecord.address`
      does) can change it again. */
  lemma HalfSubNotIdempotent(c: char)
    requires IsDigit(c)
    ensures HalfSub([c] + " 1/ 1/") == [c] + ".5 1/"
    ensures HalfSub([c] + ".5 1/") == [c] + ".5.5"
  {
    FirstRewrite(c);
    SecondRewrite(c);
  }

  lemma FirstRewrite(c: char)
    requires IsDigit(c)
    ensures HalfSub([c] + " 1/ 1/") == [c] + ".5 1/"
  {
    var t := " 1/";
    calc {
      HalfSub([c] + " 1/ 1/");
      { assert [c] + " 1/ 1/" == [c] + t + t; }
      HalfSub([c] + t + t);
      { HalfSubShort([c], t); }
      [c] + ".5" + HalfSub(t);
      { NoMarkerInSlashTail(); }
      [c] + ".5" + t;
      [c] + ".5 1/";
    }
  }

  lemma SecondRewrite(c: char)
    requires IsDigit(c)
    ensures HalfSub([c] + ".5 1/") == [c] + ".5.5"
  {
    var s := [c] + ".5 1/";
    NoMatchBeforeOther([c], ".5 1/");
    assert HalfSub(s) == [s[0]] + HalfSub(s[1..]);
    assert s[1..] == ".5 1/";
    SecondPass();
  }

  /** `.5 1/` becomes `.5.5`: the `5` before ` 1/` is a match of its own. */
  lemma SecondPass()
    ensures HalfSub(".5 1/") == ".5.5"
  {
    var t := ".5 1/";
    assert LeadingDigits(t) == 0;
    assert MatchLength(t) == 0;
    assert HalfSub(t) == "." + HalfSub(t[1..]);
    assert t[1..] == "5 1/";
    HalfSubShort("5", "");
    assert "5" + " 1/" + "" == "5 1/";
  }
}

=== FILE: Numerals.dfy ===
/** Decimal numerals: reading a run of digits, Python's `str(int)` and the
    part of Python's `float(str)` that house numbers use. */
module Numerals {
  import opened Text
  import opened Optional

  function DigitValue(c: char): nat
    requires IsDigit(c)
  {
    c as int - '0' as int
  }

  function DigitChar(d: nat): (c: char)
    requires d < 10
    ensures IsDigit(c) && DigitValue(c) == d
  {
    ('0' as int + d) as char
  }

  predicate AllDigits(s: string) {
    forall i :: 0 <= i < |s| ==> IsDigit(s[i])
  }

  /** Length of the run of ASCII digits that starts `s`. */
  function LeadingDigits(s: string): (k: nat)
    ensures k <= |s|
    ensures AllDigits(s[..k])
    ensures k < |s| ==> !IsDigit(s[k])
  {
    if s != [] && IsDigit(s[0]) then
      var k := 1 + LeadingDigits(s[1..]);
      assert s[..k] == [s[0]] + s[1..][..k - 1];
      k
    else 0
  }

  /** The value of a digit string, most significant digit first. */
  function DigitsValue(s: string): nat
    requires AllDigits(s)
  {
    if s == [] then 0 else 10 * DigitsValue(s[..|s| - 1]) + DigitValue(s[|s| - 1])
  }

  /** Python's `str(n)` for a non-negative `int`. */
  function NatToString(n: nat): (s: string)
    ensures s != [] && AllDigits(s)
  {
    if n < 10 then [DigitChar(n)] else NatToString(n / 10) + [DigitChar(n % 10)]
  }

  /** Python's `str(i)` for any `int`. */
  function IntToString(i: int): (s: string)
    ensures s != [] && (s[0] == '-' <==> i < 0)
    ensures i >= 0 ==> AllDigits(s)
  {
    if i < 0 then "-" + NatToString(-i) else NatToString(i)
  }

  function Pow10(k: nat): (p: nat)
    ensures p >= 1
  {
    if k == 0 then 1 else 10 * Pow10(k - 1)
  }

  /** Python's `float(s)` on a plain decimal numeral (`12`, `12.`, `.5`,
      `11.5`) with optional surrounding whitespace; anything else is
      `None`, the model of the `ValueError` the source catches. */
  function ParseDecimal(s: string): (r: Option<real>)
    ensures r.Some? ==> r.value >= 0.0
    ensures Strip(s) == [] ==> r.None?
  {
    var t := Strip(s);
    var k := LeadingDigits(t);
    if k == |t| then
      if k == 0 then None else Some(DigitsValue(t) as real)
    else if t[k] != '.' then None
    else
      var f := t[k + 1..];
      if !AllDigits(f) || (k == 0 && f == []) then None
      else Some(DigitsValue(t[..k]) as real + DigitsValue(f) as real / Pow10(|f|) as real)
  }

  /** Reading back what `str(n)` wrote gives `n`. */
  lemma {:induction false} NatToStringValue(n: nat)
    ensures DigitsValue(NatToString(n)) == n
  {
    if n >= 10 {
      var s := NatToString(n);
      NatToStringValue(n / 10);
      assert s[..|s| - 1] == NatToString(n / 10);
    }
  }

  /** The digit run at the start of `d + rest` is exactly `d` when `rest`
      does not start with a digit. */
  lemma {:induction false} LeadingDigitsOf(d: string, rest: string)
    requires AllDigits(d)
    requires rest == [] || !IsDigit(rest[0])
    ensures LeadingDigits(d + rest) == |d|
  {
    if d == [] {
      assert d + rest == rest;
    } else {
      assert (d + rest)[1..] == d[1..] + rest;
      LeadingDigitsOf(d[1..], rest);
    }
  }

  lemma StripDigits(s: string)
    requires s != [] && AllDigits(s)
    ensures Strip(s) == s
  {
    assert TrimLeft(s) == s;
    assert TrimRight(s) == s;
  }

  /** `float(str(n)) == n` for every non-negative integer `n`. */
  lemma ParseNatToString(n: nat)
    ensures ParseDecimal(NatToString(n)) == Some(n as real)
  {
    var s := NatToString(n);
    StripDigits(s);
    var k := LeadingDigits(s);
    assert k == |s|;
    NatToStringValue(n);
  }

  /** `float(str(n) + ".5") == n + 0.5`: the numeral a half address turns into
      reads back as the half-integer it denotes. */
  lemma ParseHalfNumeral(n: nat)
    ensures ParseDecimal(NatToString(n) + ".5") == Some(n as real + 0.5)
  {
    var d := NatToString(n);
    var s := d + ".5";
    StripHalfNumeral(d);
    LeadingDigitsOf(d, ".5");
    assert s[..|d|] == d;
    assert s[|d| + 1..] == "5";
    assert DigitsValue("5") == 5;
    NatToStringValue(n);
  }

  lemma StripHalfNumeral(d: string)
    requires d != [] && AllDigits(d)
    ensures Strip(d + ".5") == d + ".5"
  {
    var s := d + ".5";
    assert TrimLeft(s) == s;
    assert s[|s| - 1] == '5';
    assert TrimRight(s) == s;
  }
}

=== FILE: Optional.dfy ===
/** The optional value used wherever the source answers "no match" or
    lets a parse fail softly. */
module Optional {

  datatype Option<T> = None | Some(value: T)
}

=== FILE: Ranges.dfy ===
/** House-number ranges (common.py, lines 120-148) and the reader that
    turns tax-roll rows into records or ranges (lines 156-171). */
module Ranges {
  import opened Text
  import opened Optional
  import opened Numerals
  import opened HalfAddress
  import opened Records

  /** Python's `int(x)` on a float: truncation toward zero. */
  function Trunc(x: real): (n: int)
    ensures x >= 0.0 ==> n == x.Floor
    ensures x < 0.0 ==> n as real - 1.0 < x <= n as real
  {
    if x >= 0.0 then x.Floor else -((-x).Floor)
  }

  /** `floor(x) == x`. */
  predicate IsWhole(x: real) {
    x.Floor as real == x
  }

  /** `range(lo, hi, 2)`: every second integer from `lo` up to, not
      including, `hi`. */
  function Steps(lo: int, hi: int): (r: seq<int>)
    ensures |r| == if lo < hi then (hi - lo + 1) / 2 else 0
    ensures forall k :: 0 <= k < |r| ==> r[k] == lo + 2 * k && r[k] < hi
    decreases hi - lo
  {
    if lo < hi then [lo] + Steps(lo + 2, hi) else []
  }

  /** A number `AddressRange.__iter__` produces: an `int` from the range or
      one of the float endpoints. */
  datatype Num = Whole(n: int) | Frac(x: real)

  function Wholes(ns: seq<int>): (r: seq<Num>)
    ensures |r| == |ns| && forall k :: 0 <= k < |ns| ==> r[k] == Whole(ns[k])
  {
    seq(|ns|, k requires 0 <= k < |ns| => Whole(ns[k]))
  }

  /** The numbers `AddressRange.__iter__` walks through, in order: `start`
      if it is not whole, then `range(int(start), int(end), 2)`, then `end`
      if it is not whole. Every whole number lies in `[int(start), int(end))`,
      and the only fractions are the endpoints that are not whole. */
  function Numbers(start: real, end: real): (r: seq<Num>)
    ensures forall k :: 0 <= k < |r| && r[k].Whole? ==> Trunc(start) <= r[k].n < Trunc(end)
    ensures forall k :: 0 <= k < |r| && r[k].Frac? ==>
      (r[k].x == start || r[k].x == end) && !IsWhole(r[k].x)
  {
    var pre: seq<Num> := if IsWhole(start) then [] else [Frac(start)];
    var mid := Wholes(Steps(Trunc(start), Trunc(end)));
    var post: seq<Num> := if IsWhole(end) then [] else [Frac(end)];
    assert forall k :: 0 <= k < |pre + mid + post| ==>
      (pre + mid + post)[k] == if k < |pre| then pre[k] else if k < |pre| + |mid| then mid[k - |pre|] else post[k - |pre| - |mid|];
    pre + mid + post
  }

  /** `str(n)`. Python's `str` of a float (shortest round-trip digits) is
      not part of this model: it is the parameter `fmt`. */
  function NumStr(n: Num, fmt: real -> string): string {
    match n
    case Whole(i) => IntToString(i)
    case Frac(x) => fmt(x)
  }

  /** An `AddressRange` that keeps the record it was built from. */
  datatype AddressRange = AddressRange(ent: MonroeCtRecord, start: real, end: real) {

    /** The number of records the range yields. */
    function Len(): (n: nat)
      ensures n == |Numbers(start, end)|
    {
      (if IsWhole(start) then 0 else 1)
      + (if Trunc(start) < Trunc(end) then (Trunc(end) - Trunc(start) + 1) / 2 else 0)
      + (if IsWhole(end) then 0 else 1)
    }

    /** `AddressRange.__iter__`: a copy of the entry record per number,
        with only `st_nbr` replaced by the number's string form. */
    method Iterate(fmt: real -> string) returns (xs: seq<MonroeCtRecord>)
      requires ent.Valid()
      ensures |xs| == |Numbers(start, end)|
      ensures forall k :: 0 <= k < |xs| ==>
        fresh(xs[k]) && xs[k].Valid() && xs[k].slots == ent.slots[StNbr := NumStr(Numbers(start, end)[k], fmt)]
    {
      var nums := Wholes(Steps(Trunc(start), Trunc(end)));
      if !IsWhole(end) {
        nums := nums + [Frac(end)];
      }
      if !IsWhole(start) {
        nums := [Frac(start)] + nums;
      }
      assert nums == Numbers(start, end);
      xs := CopiesWithNumbers(ent, nums, fmt);
    }
  }

  /** The loop of `__iter__`: one copy of `ent` per number, with `st_nbr`
      set to `str(n)`. */
  method CopiesWithNumbers(ent: MonroeCtRecord, nums: seq<Num>, fmt: real -> string) returns (xs: seq<MonroeCtRecord>)
    requires ent.Valid()
    ensures |xs| == |nums|
    ensures forall k :: 0 <= k < |xs| ==>
      fresh(xs[k]) && xs[k].Valid() && xs[k].slots == ent.slots[StNbr := NumStr(nums[k], fmt)]
  {
    xs := [];
    for k := 0 to |nums|
      invariant |xs| == k
      invariant forall j :: 0 <= j < k ==>
        fresh(xs[j]) && xs[j].Valid() && xs[j].slots == ent.slots[StNbr := NumStr(nums[j], fmt)]
    {
      var x := new MonroeCtRecord.Copy(ent);
      CopyThenSet(ent.slots, NumStr(nums[k], fmt));
      x.SetStNbr(NumStr(nums[k], fmt));
      xs := xs + [x];
    }
  }

  /** `AddressRange(ent, start, end)`: the endpoints are put in order. */
  function NewRange(ent: MonroeCtRecord, s: real, e: real): (r: AddressRange)
    ensures r.ent == ent && r.start <= r.end
    ensures (r.start, r.end) == (s, e) || (r.start, r.end) == (e, s)
  {
    if s > e then AddressRange(ent, e, s) else AddressRange(ent, s, e)
  }

  /** The order the endpoints are given in makes no difference. */
  lemma NewRangeSymmetric(ent: MonroeCtRecord, s: real, e: real)
    ensures NewRange(ent, s, e) == NewRange(ent, e, s)
  {
  }

  /** `AddressRange.__len__` as written: both tests compare a floored value
      with itself, so the fractional endpoints are never counted. For
      ordered non-negative endpoints it never exceeds the true count. */
  function LenAsWritten(start: real, end: real): (n: int)
    ensures 0.0 <= start <= end ==> 0 <= n <= |Numbers(start, end)|
  {
    var a := start.Floor;
    var b := end.Floor;
    // Python's `//` by a positive divisor rounds down, as Dafny's `/` does.
    var n := (b - a) / 2;
    var n := if (b as real).Floor != b then n + 1 else n;
    if (a as real).Floor != a then n + 1 else n
  }

  lemma LenAsWrittenIgnoresFractions(start: real, end: real)
    ensures LenAsWritten(start, end) == (end.Floor - start.Floor) / 2
  {
  }

  /** `__len__` agrees with the number of records `__iter__` yields exactly
      when both endpoints are whole and an even distance apart. */
  lemma LenAsWrittenAgreesIff(start: real, end: real)
    requires 0.0 <= start <= end
    ensures LenAsWritten(start, end) == |Numbers(start, end)| <==>
      IsWhole(start) && IsWhole(end) && (end.Floor - start.Floor) % 2 == 0
  {
    var a, b := start.Floor, end.Floor;
    var steps := Steps(a, b);
    assert |Numbers(start, end)| == (if IsWhole(start) then 0 else 1) + |steps| + (if IsWhole(end) then 0 else 1);
    if !IsWhole(start) {
      assert a < b || !IsWhole(end) by {
        assert a as real < start;
      }
    }
  }

  /** [12, 17]: `__len__` says 2 but 12, 14 and 16 are yielded. */
  lemma TwelveToSeventeen()
    ensures LenAsWritten(12.0, 17.0) == 2
    ensures Numbers(12.0, 17.0) == [Whole(12), Whole(14), Whole(16)]
  {
    assert IsWhole(12.0) && IsWhole(17.0);
    var r := Steps(12, 17);
    assert |r| == 3 && r[0] == 12 && r[1] == 14 && r[2] == 16;
  }

  /** [11.5, 17]: the fractional start comes first and the range starts
      below it, so the numbers are not in ascending order. */
  lemma ElevenAndAHalfToSeventeen()
    ensures Numbers(11.5, 17.0) == [Frac(11.5), Whole(11), Whole(13), Whole(15)]
  {
    assert (11.5).Floor == 11;
    assert !IsWhole(11.5) && IsWhole(17.0);
    var r := Steps(11, 17);
    assert |r| == 3 && r[0] == 11 && r[1] == 13 && r[2] == 15;
  }

  /** What iterating a range does as written: `__iter__` reads `self.ent`
      for its first number, and `__init__` never sets it. */
  datatype IterOutcome = Exhausted | AttributeError

  /** Only a range with whole endpoints can finish without raising. */
  function IterateAsWritten(start: real, end: real): (o: IterOutcome)
    ensures o == Exhausted ==> IsWhole(start) && IsWhole(end)
  {
    var nums := Numbers(start, end);
    if nums == [] then Exhausted else AttributeError
  }

  /** Every range whose endpoints differ raises on iteration. */
  lemma DistinctEndpointsRaise(start: real, end: real)
    requires start < end
    ensures IterateAsWritten(start, end) == AttributeError
  {
    if IsWhole(start) && IsWhole(end) {
      assert Trunc(start) < Trunc(end);
      assert Steps(Trunc(start), Trunc(end)) != [];
    }
  }

  /** A range with one whole endpoint, such as `12-12`, yields nothing and so
      never reaches the missing attribute. */
  lemma EqualWholeEndpointsFinish(x: real)
    requires IsWhole(x)
    ensures IterateAsWritten(x, x) == Exhausted
  {
  }

  // ---------------------------------------------------------------------
  // Classification of a house number (common.py, lines 163-171).

  /** A character of the class `[-&/]`. */
  predicate IsDelim(c: char) {
    c == '-' || c == '&' || c == '/'
  }

  predicate NoDelims(s: string) {
    forall i :: 0 <= i < |s| ==> !IsDelim(s[i])
  }

  function CountDelims(s: string): nat {
    if s == [] then 0 else (if IsDelim(s[0]) then 1 else 0) + CountDelims(s[1..])
  }

  /** `re.split('[-&/]', s)`: the pieces between delimiters, empty pieces
      included. */
  function SplitDelims(s: string): (parts: seq<string>)
    ensures |parts| == CountDelims(s) + 1
    ensures forall k :: 0 <= k < |parts| ==> NoDelims(parts[k])
  {
    if s == [] then [""]
    else
      var rest := SplitDelims(s[1..]);
      if IsDelim(s[0]) then [""] + rest
      else [[s[0]] + rest[0]] + rest[1..]
  }

  /** A string without delimiters is one piece. */
  lemma {:induction false} SplitNoDelims(s: string)
    requires NoDelims(s)
    ensures SplitDelims(s) == [s]
  {
    if s != [] {
      SplitNoDelims(s[1..]);
      assert [s[0]] + s[1..] == s;
    }
  }

  /** Splitting at the first delimiter: the piece before it, then the split
      of what follows. */
  lemma {:induction false} SplitAtDelim(a: string, c: char, b: string)
    requires NoDelims(a) && IsDelim(c)
    ensures SplitDelims(a + [c] + b) == [a] + SplitDelims(b)
  {
    var s := a + [c] + b;
    if a == [] {
      assert s[1..] == b;
    } else {
      assert s[1..] == a[1..] + [c] + b;
      SplitAtDelim(a[1..], c, b);
      assert [a[0]] + a[1..] == a;
    }
  }

  /** The endpoints of a range number, or `None` when `st_nbr` does not
      split into exactly two pieces that `float()` accepts (the
      `ValueError` the source catches). */
  function Classify(nr: string): (r: Option<(real, real)>)
    ensures r.Some? ==> CountDelims(nr) == 1 && 0.0 <= r.value.0 && 0.0 <= r.value.1
    ensures r.Some? <==> (CountDelims(nr) == 1 &&
      ParseDecimal(SplitDelims(nr)[0]).Some? && ParseDecimal(SplitDelims(nr)[1]).Some?)
  {
    var parts := SplitDelims(nr);
    if |parts| != 2 then None
    else
      match (ParseDecimal(parts[0]), ParseDecimal(parts[1]))
      case (Some(a), Some(b)) => Some((a, b))
      case _ => None
  }

  lemma DigitsHaveNoDelims(s: string)
    requires AllDigits(s)
    ensures NoDelims(s)
  {
  }

  /** `<m>-<n>`, `<m>&<n>` and `<m>/<n>` are ranges from `m` to `n`. */
  lemma ClassifyWholeRange(m: nat, c: char, n: nat)
    requires IsDelim(c)
    ensures Classify(NatToString(m) + [c] + NatToString(n)) == Some((m as real, n as real))
  {
    DigitsHaveNoDelims(NatToString(m));
    DigitsHaveNoDelims(NatToString(n));
    SplitAtDelim(NatToString(m), c, NatToString(n));
    SplitNoDelims(NatToString(n));
    ParseNatToString(m);
    ParseNatToString(n);
  }

  /** A half address such as `10 1/2` is a plain record: the constructor
      rewrites it to `10.5` before the split, so its `/` is gone. */
  lemma {:induction false} HalfNumberIsPlain(n: nat)
    ensures Classify(HalfSub(NatToString(n) + " 1/2")) == None
  {
    var d := NatToString(n);
    HalfSubFull(d, "");
    assert d + " 1/2" + "" == d + " 1/2";
    assert d + ".5" + "" == d + ".5";
    DigitsHaveNoDelims(d);
    SplitNoDelims(d + ".5");
  }

  // ---------------------------------------------------------------------
  // The reader (common.py, lines 156-171).

  /** What `addressRecords` yields for a data row. */
  datatype Item = Plain(rec: MonroeCtRecord) | Range(range: AddressRange)

  /** The record an item was built from. */
  function Entry(item: Item): MonroeCtRecord {
    match item
    case Plain(r) => r
    case Range(ar) => ar.ent
  }

  /** `item` is what the loop body yields for `row`: the row's record, as a
      range when its house number classifies as one. */
  ghost predicate Yielded(item: Item, row: seq<string>)
    reads Entry(item)
    requires |row| >= SlotCount
  {
    Entry(item).slots == Filled(row) &&
    match Classify(Filled(row)[StNbr])
    case None => item.Plain?
    case Some((a, b)) => item == Range(NewRange(Entry(item), a, b))
  }

  /** `addressRecords`: the header row, then one item per data row, in
      order. */
  method AddressRecords(rows: seq<seq<string>>) returns (header: seq<string>, items: seq<Item>)
    requires |rows| >= 1
    requires forall k :: 1 <= k < |rows| ==> |rows[k]| >= SlotCount
    ensures header == rows[0] && |items| == |rows| - 1
    ensures forall k :: 0 <= k < |items| ==>
      fresh(Entry(items[k])) && Entry(items[k]).Valid() && Yielded(items[k], rows[k + 1])
  {
    header := rows[0];
    items := [];
    for k := 1 to |rows|
      invariant |items| == k - 1
      invariant forall j :: 0 <= j < k - 1 ==>
        fresh(Entry(items[j])) && Entry(items[j]).Valid() && Yielded(items[j], rows[j + 1])
    {
      var ent := new MonroeCtRecord.FromRow(rows[k]);
      match Classify(ent.slots[StNbr])
      case None =>
        items := items + [Plain(ent)];
      case Some((a, b)) =>
        items := items + [Range(NewRange(ent, a, b))];
    }
  }
}

=== FILE: Records.dfy ===
/** The positional records of common.py: `MonroeCtRecord`, one row of the
    Monroe County tax roll (lines 67-97), and `BoERecord`, one row of the
    Board of Elections voter file (lines 100-117, 151-153). A record keeps
    its attribute values in declaration order; `__slots__` fixes that order. */
module Records {
  import opened Text
  import opened Numerals
  import opened HalfAddress
  import opened Abbreviations
  import opened Street

  /** `len(MonroeCtRecord.__slots__)`. */
  const SlotCount: nat := 22

  /** Positions in `MonroeCtRecord.__slots__` of the attributes the code reads. */
  const StNbr: nat := 2
  const GisStName: nat := 3
  const PropDesc: nat := 12
  const ParZip: nat := 15
  const City: nat := 16

  /** `MonroeCtRecord.__slots__`. */
  const SlotNames: seq<string> :=
    ["object_id", "print_key", "st_nbr", "gis_st_name",
     "rps_st_name", "loc_pre_dir", "loc_st_name", "loc_st_type",
     "owner1", "owner2", "own_addr", "own_addr_2", "prop_desc",
     "sch_name", "par_zcty", "par_zip", "city", "disp_addr",
     "fe_name", "fe_type", "p_name", "pol_address"]

  lemma SlotPositions()
    ensures |SlotNames| == SlotCount
    ensures SlotNames[StNbr] == "st_nbr" && SlotNames[GisStName] == "gis_st_name"
    ensures SlotNames[PropDesc] == "prop_desc" && SlotNames[ParZip] == "par_zip"
    ensures SlotNames[City] == "city"
  {
  }

  /** The slot values a record holds once its constructor has run: the first
      22 values of the source, with the house number half-substituted. */
  function Filled(values: seq<string>): (s: seq<string>)
    requires |values| >= SlotCount
    ensures |s| == SlotCount
    ensures forall k :: 0 <= k < SlotCount && k != StNbr ==> s[k] == values[k]
    ensures s[StNbr] == HalfSub(values[StNbr])
  {
    values[..SlotCount][StNbr := HalfSub(values[StNbr])]
  }

  class MonroeCtRecord {
    /** The attribute values, in `__slots__` order. */
    var slots: seq<string>

    ghost predicate Valid()
      reads this
    {
      |slots| == SlotCount
    }

    /** `MonroeCtRecord(row)` for a CSV row: the `setattr` loop takes one
        value per slot, in order, then `st_nbr` is half-substituted. */
    constructor FromRow(row: seq<string>)
      requires |row| >= SlotCount
      ensures Valid() && slots == Filled(row)
    {
      var filled: seq<string> := [];
      for k := 0 to SlotCount
        invariant filled == row[..k]
      {
        filled := filled + [row[k]];
      }
      slots := filled;
      new;
      slots := slots[StNbr := HalfSub(slots[StNbr])];
    }

    /** `MonroeCtRecord(other)` for another record: the `setattr` loop copies
        every slot, then `st_nbr` is half-substituted once more. */
    constructor Copy(other: MonroeCtRecord)
      requires other.Valid()
      ensures Valid() && slots == Filled(other.slots)
    {
      var copied: seq<string> := [];
      for k := 0 to SlotCount
        invariant copied == other.slots[..k]
      {
        copied := copied + [other.slots[k]];
      }
      slots := copied;
      new;
      slots := slots[StNbr := HalfSub(slots[StNbr])];
    }

    /** The assignment `x.st_nbr = v`. */
    method SetStNbr(v: string)
      requires Valid()
      modifies this
      ensures Valid() && slots == old(slots)[StNbr := v]
    {
      slots := slots[StNbr := v];
    }

    /** `MonroeCtRecord.__str__`: `<st_nbr> <gis_st_name>, <city>, NY, USA`. */
    function Str(): (s: string)
      reads this
      requires Valid()
      ensures |s| == |slots[StNbr]| + |slots[GisStName]| + |slots[City]| + 12
      ensures s[..|slots[StNbr]| + 1] == slots[StNbr] + " "
      ensures s[|s| - 9..] == ", NY, USA"
    {
      slots[StNbr] + " " + slots[GisStName] + ", " + slots[City] + ", NY, USA"
    }

    /** `MonroeCtRecord.tuple`: every slot value in order, then `str(self)`. */
    function Tuple(): (t: seq<string>)
      reads this
      requires Valid()
      ensures |t| == SlotCount + 1 && t[..SlotCount] == slots && t[SlotCount] == Str()
    {
      slots + [Str()]
    }

    /** `MonroeCtRecord.is_bulk`: the property is not a single-family residence,
        that is, `family res` occurs nowhere in the lower-cased `prop_desc`. */
    function IsBulk(): (b: bool)
      reads this
      requires Valid()
      ensures b <==> forall i :: !OccursAt(Lower(slots[PropDesc]), "family res", i)
    {
      !Contains(Lower(slots[PropDesc]), "family res")
    }

    /** `MonroeCtRecord.address`: the key built from `par_zip`,
        `gis_st_name` and `st_nbr`. */
    method Address(table: Table) returns (a: StreetAddress)
      requires Valid()
      ensures a == AddressOf(slots[ParZip], slots[GisStName], slots[StNbr], table)
    {
      a := NewStreetAddress(slots[ParZip], slots[GisStName], slots[StNbr], table);
    }
  }

  /** Two records have the same tuple exactly when they hold the same values. */
  lemma TupleDeterminesSlots(a: MonroeCtRecord, b: MonroeCtRecord)
    requires a.Valid() && b.Valid()
    ensures a.Tuple() == b.Tuple() <==> a.slots == b.slots
  {
    if a.Tuple() == b.Tuple() {
      assert a.slots == a.Tuple()[..SlotCount];
    }
  }

  /** A copy whose `st_nbr` is then overwritten holds the original's values
      with only `st_nbr` replaced: the second substitution is lost. */
  lemma CopyThenSet(values: seq<string>, v: string)
    requires |values| == SlotCount
    ensures Filled(values)[StNbr := v] == values[StNbr := v]
  {
    assert values[..SlotCount] == values;
  }

  /** A record whose `prop_desc` mentions `family res` in any letter case
      (`Family Res`, `SINGLE FAMILY RES`) is not bulk. */
  lemma {:induction false} FamilyResIsNotBulk(r: MonroeCtRecord, before: string, w: string, after: string)
    requires r.Valid() && r.slots[PropDesc] == before + w + after && Lower(w) == "family res"
    ensures !r.IsBulk()
  {
    LowerAppend(before + w, after);
    LowerAppend(before, w);
    var low := Lower(r.slots[PropDesc]);
    assert low == Lower(before) + "family res" + Lower(after);
    assert OccursAt(low, "family res", |before|);
  }

  /** A half address keeps its `.5` form through `address()`: the record
      constructor has already rewritten it and a digit run followed by `.5`
      contains no further match. */
  lemma {:induction false} HalfNumberAddress(values: seq<string>, n: nat, table: Table)
    requires |values| >= SlotCount && values[StNbr] == NatToString(n) + " 1/2"
    ensures var s := Filled(values);
      AddressOf(s[ParZip], s[GisStName], s[StNbr], table).number == NatToString(n) + ".5"
  {
    var d := NatToString(n);
    HalfSubFull(d, "");
    assert d + " 1/2" + "" == d + " 1/2";
    assert d + ".5" + "" == d + ".5";
    var t := d + ".5";
    forall i | 0 <= i < |t| ensures !MarkerAt(t, i) {
      if i + 4 <= |t| {
        assert t[i + 1..i + 4][0] == t[i + 1];
      }
    }
    HalfSubIdentityIff(t);
  }

  /** `len(BoERecord.__slots__)`. */
  const BoeSlotCount: nat := 38

  class BoERecord {
    /** The attribute values, in `__slots__` order. */
    var slots: seq<string>

    ghost predicate Valid()
      reads this
    {
      |slots| == BoeSlotCount
    }

    /** `BoERecord(row)` for a CSV row: one value per slot, in order. */
    constructor FromRow(row: seq<string>)
      requires |row| >= BoeSlotCount
      ensures Valid() && slots == row[..BoeSlotCount]
    {
      var filled: seq<string> := [];
      for k := 0 to BoeSlotCount
        invariant filled == row[..k]
      {
        filled := filled + [row[k]];
      }
      slots := filled;
    }

    /** `BoERecord(other)` for another record: every slot copied. */
    constructor Copy(other: BoERecord)
      requires other.Valid()
      ensures Valid() && slots == other.slots
    {
      var copied: seq<string> := [];
      for k := 0 to BoeSlotCount
        invariant copied == other.slots[..k]
      {
        copied := copied + [other.slots[k]];
      }
      slots := copied;
    }
  }

  /** `boeRecords`: one record per row of the file, header row included. */
  method BoeRecords(rows: seq<seq<string>>) returns (recs: seq<BoERecord>)
    requires forall k :: 0 <= k < |rows| ==> |rows[k]| >= BoeSlotCount
    ensures |recs| == |rows|
    ensures forall k :: 0 <= k < |recs| ==> fresh(recs[k]) && recs[k].Valid() && recs[k].slots == rows[k][..BoeSlotCount]
  {
    recs := [];
    for k := 0 to |rows|
      invariant |recs| == k
      invariant forall j :: 0 <= j < k ==> fresh(recs[j]) && recs[j].Valid() && recs[j].slots == rows[j][..BoeSlotCount]
    {
      var r := new BoERecord.FromRow(rows[k]);
      recs := recs + [r];
    }
  }
}

=== FILE: Redundant.dfy ===
/** redundant.py: counting the rows of the voter universe whose normalised
    form repeats an earlier row (lines 8-16). */
module Redundant {
  import opened Abbreviations
  import opened Exclusion

  /** How many entries of `xs` equal some earlier entry. */
  function Repeats(xs: seq<Row>): nat {
    if xs == [] then 0
    else Repeats(xs[..|xs| - 1]) + (if xs[|xs| - 1] in xs[..|xs| - 1] then 1 else 0)
  }

  /** Every entry is either the first occurrence of its value or a repeat:
      the repeats and the distinct values add up to the length. */
  lemma {:induction false} RepeatsPlusDistinct(xs: seq<Row>)
    ensures Repeats(xs) + |Elements(xs)| == |xs|
  {
    if xs != [] {
      var init, x := xs[..|xs| - 1], xs[|xs| - 1];
      RepeatsPlusDistinct(init);
      assert xs == init + [x];
      assert Elements(xs) == Elements(init) + {x};
      if x in init {
        assert Elements(xs) == Elements(init);
      }
    }
  }

  /** The count never decreases as more rows are read. */
  lemma {:induction false} RepeatsMonotone(xs: seq<Row>, i: nat, j: nat)
    requires i <= j <= |xs|
    ensures Repeats(xs[..i]) <= Repeats(xs[..j])
    decreases j - i
  {
    if i < j {
      RepeatsMonotone(xs, i, j - 1);
      assert xs[..j][..j - 1] == xs[..j - 1];
    }
  }

  /** A value's first occurrence is never counted. */
  lemma FirstOccurrenceNotCounted(xs: seq<Row>, x: Row)
    requires x !in xs
    ensures Repeats(xs + [x]) == Repeats(xs)
  {
    assert (xs + [x])[..|xs|] == xs;
  }

  /** Reading the entry after a prefix: the distinct values gain the entry,
      and the count grows by one exactly when the entry was seen before. */
  lemma RepeatsStep(xs: seq<Row>, i: nat)
    requires i < |xs|
    ensures Elements(xs[..i + 1]) == Elements(xs[..i]) + {xs[i]}
    ensures Repeats(xs[..i + 1]) == Repeats(xs[..i]) + (if xs[i] in Elements(xs[..i]) then 1 else 0)
  {
    assert xs[..i + 1] == xs[..i] + [xs[i]];
    assert xs[..i + 1][..i] == xs[..i];
  }

  /** The counting loop: the header row is skipped; a row whose normalised
      tuple is already in `U` adds one to REDUNDANT and leaves `U` alone,
      any other row is added to `U`. */
  method CountRedundant(rows: seq<Row>, table: Table) returns (redundant: nat, u: set<Row>)
    requires |rows| >= 1
    ensures u == Elements(NormRows(rows[1..], table))
    ensures redundant == Repeats(NormRows(rows[1..], table))
    ensures redundant + |u| == |rows| - 1
  {
    ghost var xs := NormRows(rows[1..], table);
    u, redundant := {}, 0;
    for i := 1 to |rows|
      invariant u == Elements(xs[..i - 1])
      invariant redundant == Repeats(xs[..i - 1])
    {
      var ent := NormRow(rows[i], table);
      assert ent == xs[i - 1];
      RepeatsStep(xs, i - 1);
      if ent in u {
        redundant := redundant + 1;
        continue;
      }
      u := u + {ent};
    }
    assert xs[..|rows| - 1] == xs;
    RepeatsPlusDistinct(xs);
  }
}

=== FILE: Street.dfy ===
/** `StreetAddress` (common.py, lines 10-64): the comparable key of an
    address and the two-pass street-name normaliser. */
module Street {
  import opened Text
  import opened Optional
  import opened Abbreviations
  import opened HalfAddress

  /** `StreetAddress._cardinal`. */
  const Cardinal: map<string, string> :=
    map["n" := "north", "e" := "east", "s" := "south", "w" := "west",
        "nw" := "northwest", "ne" := "northeast", "sw" := "southwest", "se" := "southeast"]

  /** `StreetAddress._directions`: the abbreviations and their full words. */
  const Directions: set<string> :=
    {"n", "e", "s", "w", "nw", "ne", "sw", "se",
     "north", "east", "south", "west", "northwest", "northeast", "southwest", "southeast"}

  lemma DirectionsAreCardinalKeysAndValues()
    ensures Directions == Cardinal.Keys + Cardinal.Values
  {
    assert Cardinal.Values == FullDirections by {
      assert Cardinal["n"] == "north" && Cardinal["e"] == "east" && Cardinal["s"] == "south" && Cardinal["w"] == "west";
      assert Cardinal["nw"] == "northwest" && Cardinal["ne"] == "northeast";
      assert Cardinal["sw"] == "southwest" && Cardinal["se"] == "southeast";
    }
  }

  /** The full words among the directions. */
  const FullDirections: set<string> :=
    {"north", "east", "south", "west", "northwest", "northeast", "southwest", "southeast"}

  /** A direction token in the form the first pass writes it. */
  function Expand(t: string): string {
    if t in Cardinal then Cardinal[t] else t
  }

  /** The tokens `street.lower().strip().split()`. */
  function Tokens(street: string): seq<string> {
    Split(Strip(Lower(street)))
  }

  // ---------------------------------------------------------------------
  // First pass: directions to the front.

  /** One iteration of the first loop, at index `i` of the current list: a
      direction token is removed and its full word put in front. */
  function MoveStep(toks: seq<string>, i: nat): (r: seq<string>)
    requires i < |toks|
    ensures |r| == |toks|
  {
    if toks[i] in Directions then [Expand(toks[i])] + (toks[..i] + toks[i + 1..]) else toks
  }

  /** The iterations of the first loop for indices `i - 1` down to `0`. The
      indices are fixed before the loop starts while the list shifts under
      them, which is why a token just left of a moved one is never looked at. */
  function MoveFrom(toks: seq<string>, i: nat): (r: seq<string>)
    requires i <= |toks|
    ensures |r| == |toks|
    decreases i
  {
    if i == 0 then toks else MoveFrom(MoveStep(toks, i - 1), i - 1)
  }

  /** The whole first loop (common.py, lines 38-46). It only moves and
      expands directions: the token count is kept, and so are the tokens
      that are not directions, in their relative order. */
  function MoveDirections(toks: seq<string>): (r: seq<string>)
    ensures |r| == |toks|
    ensures NonDirections(r) == NonDirections(toks)
  {
    MoveFromKeepsOthers(toks, |toks|);
    MoveFrom(toks, |toks|)
  }

  /** Tokens at and beyond index `i` are never touched by the iterations below `i`. */
  lemma {:induction false} MoveFromAppend(s: seq<string>, x: string, i: nat)
    requires i <= |s|
    ensures MoveFrom(s + [x], i) == MoveFrom(s, i) + [x]
    decreases i
  {
    if i > 0 {
      var t := s + [x];
      assert t[i - 1] == s[i - 1];
      assert t[..i - 1] == s[..i - 1];
      assert t[i..] == s[i..] + [x];
      assert MoveStep(t, i - 1) == MoveStep(s, i - 1) + [x];
      MoveFromAppend(MoveStep(s, i - 1), x, i - 1);
    }
  }

  /** A last token that is not a direction stays last and unchanged. */
  lemma MovePassesOver(a: seq<string>, x: string)
    requires x !in Directions
    ensures MoveDirections(a + [x]) == MoveDirections(a) + [x]
  {
    var t := a + [x];
    assert MoveStep(t, |a|) == t;
    MoveFromAppend(a, x, |a|);
  }

  /** A last token that is a direction goes to the front expanded, and the
      token just left of it is skipped: it stays last, unexpanded, even when
      it is a direction itself. */
  lemma MoveSkipsLeftNeighbour(a: seq<string>, x: string, d: string)
    requires d in Directions
    ensures MoveDirections(a + [x, d]) == MoveDirections([Expand(d)] + a) + [x]
  {
    var t := a + [x, d];
    var n := |a| + 1;
    assert t[n] == d;
    assert t[..n] == a + [x];
    assert t[n + 1..] == [];
    assert MoveStep(t, n) == ([Expand(d)] + a) + [x];
    MoveFromAppend([Expand(d)] + a, x, n);
  }

  /** A lone direction is expanded in place. */
  lemma MoveSingle(d: string)
    ensures MoveDirections([d]) == [Expand(d)]
  {
    assert [d][..0] == [] && [d][1..] == [];
  }

  /** The tokens that are not directions, in order. */
  function NonDirections(toks: seq<string>): seq<string> {
    if toks == [] then []
    else (if toks[0] in Directions then [] else [toks[0]]) + NonDirections(toks[1..])
  }

  lemma {:induction false} NonDirectionsAppend(a: seq<string>, b: seq<string>)
    ensures NonDirections(a + b) == NonDirections(a) + NonDirections(b)
  {
    if a == [] {
      assert a + b == b;
    } else {
      assert (a + b)[1..] == a[1..] + b;
      NonDirectionsAppend(a[1..], b);
    }
  }

  lemma ExpandIsDirection(t: string)
    requires t in Directions
    ensures Expand(t) in FullDirections && FullDirections <= Directions
    ensures Expand(Expand(t)) == Expand(t)
  {
  }

  lemma MoveStepKeepsOthers(toks: seq<string>, i: nat)
    requires i < |toks|
    ensures NonDirections(MoveStep(toks, i)) == NonDirections(toks)
  {
    if toks[i] in Directions {
      var a, d, b := toks[..i], toks[i], toks[i + 1..];
      var e := Expand(d);
      ExpandIsDirection(d);
      var c := toks[i..];
      assert toks == a + c;
      assert c[1..] == b;
      assert NonDirections(c) == NonDirections(b);
      assert MoveStep(toks, i) == [e] + (a + b);
      NonDirectionsAppend([e], a + b);
      NonDirectionsAppend(a, c);
      NonDirectionsAppend(a, b);
    }
  }

  lemma {:induction false} MoveFromKeepsOthers(toks: seq<string>, i: nat)
    requires i <= |toks|
    ensures NonDirections(MoveFrom(toks, i)) == NonDirections(toks)
    decreases i
  {
    if i > 0 {
      MoveStepKeepsOthers(toks, i - 1);
      MoveFromKeepsOthers(MoveStep(toks, i - 1), i - 1);
    }
  }

  lemma {:induction false} MoveFromKeepsFullHead(toks: seq<string>, i: nat)
    requires i <= |toks| && 0 < |toks|
    requires toks[0] in FullDirections
    ensures MoveFrom(toks, i)[0] in FullDirections
    decreases i
  {
    if i > 0 {
      var t := MoveStep(toks, i - 1);
      if toks[i - 1] in Directions {
        ExpandIsDirection(toks[i - 1]);
      }
      assert t[0] in FullDirections;
      MoveFromKeepsFullHead(t, i - 1);
    }
  }

  /** The last token is always visited, so when it is a direction the
      normalised list starts with a full direction word. */
  lemma LastDirectionLeadsExpanded(toks: seq<string>)
    requires 0 < |toks| && toks[|toks| - 1] in Directions
    ensures MoveDirections(toks)[0] in FullDirections
  {
    var n := |toks|;
    var t := MoveStep(toks, n - 1);
    assert t[0] == Expand(toks[n - 1]);
    ExpandIsDirection(toks[n - 1]);
    MoveFromKeepsFullHead(t, n - 1);
  }

  /** The first pass is not idempotent. For a name `m` followed by two
      directions, such as `main n s`, the last direction moves to the front
      and the one before it is skipped (`south main n`); a second pass then
      moves that one too (`south north main`). */
  lemma MoveDirectionsNotIdempotent(m: string, d1: string, d2: string)
    requires m !in Directions && d1 in Directions && d2 in Directions
    ensures MoveDirections([m, d1, d2]) == [Expand(d2), m, d1]
    ensures MoveDirections([Expand(d2), m, d1]) == [Expand(d2), Expand(d1), m]
    ensures MoveDirections(MoveDirections([m, d1, d2])) != MoveDirections([m, d1, d2])
  {
    var e1, e2 := Expand(d1), Expand(d2);
    ExpandIsDirection(d1);
    ExpandIsDirection(d2);
    assert MoveDirections([e2]) == [e2] by {
      MoveSingle(e2);
    }
    calc {
      MoveDirections([m, d1, d2]);
      { assert [m, d1, d2] == [m] + [d1, d2]; }
      MoveDirections([m] + [d1, d2]);
      { MoveSkipsLeftNeighbour([m], d1, d2); }
      MoveDirections([e2] + [m]) + [d1];
      { MovePassesOver([e2], m); }
      [e2, m, d1];
    }
    calc {
      MoveDirections([e2, m, d1]);
      { assert [e2, m, d1] == [e2] + [m, d1]; }
      MoveDirections([e2] + [m, d1]);
      { MoveSkipsLeftNeighbour([e2], m, d1); }
      MoveDirections([e1] + [e2]) + [m];
      { assert [e1] + [e2] == [] + [e1, e2];
        MoveSkipsLeftNeighbour([], e1, e2); }
      MoveDirections([e2]) + [e1] + [m];
      [e2, e1, m];
    }
    assert [e2, e1, m][1] != [e2, m, d1][1];
  }

  // ---------------------------------------------------------------------
  // Second pass: fold everything before the last qualifier.

  /** Index of the rightmost token that belongs to `q`. */
  function RightmostIn(toks: seq<string>, q: set<string>): (r: Option<nat>)
    ensures r.Some? ==> r.value < |toks| && toks[r.value] in q
    ensures r.Some? ==> forall j :: r.value < j < |toks| ==> toks[j] !in q
    ensures r.None? ==> forall j :: 0 <= j < |toks| ==> toks[j] !in q
  {
    if toks == [] then None
    else if toks[|toks| - 1] in q then Some(|toks| - 1)
    else RightmostIn(toks[..|toks| - 1], q)
  }

  /** The second loop (common.py, lines 48-56). Without a qualifier the
      tokens are unchanged; otherwise the tokens before the rightmost one are
      glued into a single token, which loses and reorders no text, and only
      the qualifier itself is abbreviated. */
  function Collapse(toks: seq<string>, table: Table): (r: seq<string>)
    ensures RightmostIn(toks, Mentions(table)).None? ==> r == toks
    ensures RightmostIn(toks, Mentions(table)).Some? ==>
      var i := RightmostIn(toks, Mentions(table)).value;
      |r| == |toks| - i + 1 && Join(r, "") == Join(toks[i := Apply(table, toks[i])], "")
  {
    match RightmostIn(toks, Mentions(table))
    case None => toks
    case Some(i) =>
      FoldKeepsText(toks, i, Apply(table, toks[i]));
      [Join(toks[..i], "")] + [Apply(table, toks[i])] + toks[i + 1..]
  }

  /** `StreetAddress.normalize` (common.py, lines 35-58). A street with no
      tokens normalises to the empty string. */
  function Normalized(street: string, table: Table): (r: string)
    ensures Tokens(street) == [] ==> r == ""
  {
    Join(Collapse(MoveDirections(Tokens(street)), table), " ")
  }

  /** Folding the tokens before index `i` into one and replacing the token
      at `i` by `q` loses and reorders no text. */
  lemma FoldKeepsText(toks: seq<string>, i: nat, q: string)
    requires i < |toks|
    ensures Join([Join(toks[..i], "")] + [q] + toks[i + 1..], "") == Join(toks[i := q], "")
  {
    var u := toks[i := q];
    assert u == toks[..i] + [q] + toks[i + 1..];
    ConcatAppend(toks[..i] + [q], toks[i + 1..]);
    ConcatAppend(toks[..i], [q]);
    ConcatAppend([Join(toks[..i], "")] + [q], toks[i + 1..]);
    ConcatAppend([Join(toks[..i], "")], [q]);
  }

  /** When the rightmost qualifier is the first token, nothing precedes it:
      the folded prefix is empty and the normalised street starts with a space. */
  lemma LeadingQualifierGivesLeadingSpace(street: string, table: Table)
    requires RightmostIn(MoveDirections(Tokens(street)), Mentions(table)) == Some(0)
    ensures |Normalized(street, table)| > 0 && Normalized(street, table)[0] == ' '
  {
    var toks := MoveDirections(Tokens(street));
    var c := Collapse(toks, table);
    assert c == [""] + [Apply(table, toks[0])] + toks[1..];
    assert Join(c, " ") == "" + " " + Join(c[1..], " ");
  }

  /** Collapsing at a known rightmost qualifier. */
  lemma CollapseAt(toks: seq<string>, table: Table, i: nat)
    requires i < |toks| && toks[i] in Mentions(table)
    requires forall j :: i < j < |toks| ==> toks[j] !in Mentions(table)
    ensures Collapse(toks, table) == [Join(toks[..i], "")] + [Apply(table, toks[i])] + toks[i + 1..]
  {
    var r := RightmostIn(toks, Mentions(table));
    assert r == Some(i);
  }

  /** The source's in-place form of the fold: prepend the joined prefix,
      then abbreviate the token now at index 1. */
  lemma FoldAt(toks: seq<string>, table: Table, i: nat)
    requires i < |toks| && toks[i] in Mentions(table)
    requires forall j :: i < j < |toks| ==> toks[j] !in Mentions(table)
    ensures var t := [Join(toks[..i], "")] + toks[i..];
      Collapse(toks, table) == if t[1] in table then t[1 := table[t[1]]] else t
  {
    CollapseAt(toks, table, i);
    var p := Join(toks[..i], "");
    var t := [p] + toks[i..];
    assert toks[i..] == [toks[i]] + toks[i + 1..];
    assert t == [p] + [toks[i]] + toks[i + 1..];
    assert t[1] == toks[i];
  }

  /** Lower-casing keeps a word a word. */
  lemma LowerWord(w: string)
    requires IsWord(w)
    ensures IsWord(Lower(w))
  {
  }

  lemma LowerThree(w1: string, w2: string, w3: string)
    ensures Lower(w1 + " " + w2 + " " + w3) == Join([Lower(w1), Lower(w2), Lower(w3)], " ")
  {
    var ls := [Lower(w1), Lower(w2), Lower(w3)];
    calc {
      Lower(w1 + " " + w2 + " " + w3);
      { LowerAppend(w1 + " " + w2 + " ", w3); }
      Lower(w1 + " " + w2 + " ") + Lower(w3);
      { LowerAppend(w1 + " " + w2, " "); }
      Lower(w1 + " " + w2) + Lower(" ") + Lower(w3);
      { LowerAppend(w1 + " ", w2); }
      Lower(w1 + " ") + Lower(w2) + Lower(" ") + Lower(w3);
      { LowerAppend(w1, " "); }
      Lower(w1) + Lower(" ") + Lower(w2) + Lower(" ") + Lower(w3);
      { assert Lower(" ") == " "; }
      ls[0] + " " + (ls[1] + " " + ls[2]);
      { assert ls[1..][1..] == [ls[2]]; }
      ls[0] + " " + Join(ls[1..], " ");
      Join(ls, " ");
    }
  }

  /** The tokens of three words separated by single spaces are the three
      words, lower-cased. */
  lemma ThreeWordTokens(w1: string, w2: string, w3: string)
    requires IsWord(w1) && IsWord(w2) && IsWord(w3)
    ensures Tokens(w1 + " " + w2 + " " + w3) == [Lower(w1), Lower(w2), Lower(w3)]
  {
    var ls := [Lower(w1), Lower(w2), Lower(w3)];
    LowerWord(w1);
    LowerWord(w2);
    LowerWord(w3);
    calc {
      Tokens(w1 + " " + w2 + " " + w3);
      Split(Strip(Lower(w1 + " " + w2 + " " + w3)));
      { LowerThree(w1, w2, w3); }
      Split(Strip(Join(ls, " ")));
      { SplitStrip(Join(ls, " ")); }
      Split(Join(ls, " "));
      { SplitJoin(ls); }
      ls;
    }
  }

  /** A street of the form `<direction> <name> <qualifier>`, such as
      `N Herald Circle`, normalises to the full direction glued to the
      name, a space and the abbreviated qualifier (`northherald` followed
      by the table's form of `circle`), not to the `heraldcircle north`
      the comment at common.py line 34 announces. */
  lemma DirectionNameQualifier(w1: string, w2: string, w3: string, table: Table)
    requires IsWord(w1) && IsWord(w2) && IsWord(w3)
    requires Lower(w1) in Directions
    requires Lower(w2) !in Directions
    requires Lower(w3) !in Directions && Lower(w3) in table
    ensures Normalized(w1 + " " + w2 + " " + w3, table) == Expand(Lower(w1)) + Lower(w2) + " " + table[Lower(w3)]
  {
    var l1, l2, l3 := Lower(w1), Lower(w2), Lower(w3);
    var e1 := Expand(l1);
    calc {
      Normalized(w1 + " " + w2 + " " + w3, table);
      { ThreeWordTokens(w1, w2, w3); }
      Join(Collapse(MoveDirections([l1, l2, l3]), table), " ");
      { MoveNameQualifier(l1, l2, l3); }
      Join(Collapse([e1, l2, l3], table), " ");
      { CollapseNameQualifier(e1, l2, l3, table); }
      Join([e1 + l2, table[l3]], " ");
      e1 + l2 + " " + table[l3];
    }
  }

  /** A full direction word is a lower-case word. */
  lemma FullDirectionWord(e: string)
    requires e in FullDirections
    ensures IsWord(e) && Lower(e) == e
  {
  }

  lemma JoinThree(a: string, b: string, c: string)
    ensures Join([a, b, c], " ") == a + " " + b + " " + c
  {
    var ws := [a, b, c];
    assert ws[1..] == [b, c] && ws[1..][1..] == [c];
    calc {
      Join(ws, " ");
      a + " " + Join([b, c], " ");
      a + " " + (b + " " + Join([c], " "));
      a + " " + (b + " " + c);
      a + " " + b + " " + c;
    }
  }

  /** Three tokens none of which is a qualifier are joined unchanged. */
  lemma NoQualifierThree(a: string, b: string, c: string, table: Table)
    requires a !in Mentions(table) && b !in Mentions(table) && c !in Mentions(table)
    ensures Join(Collapse([a, b, c], table), " ") == a + " " + b + " " + c
  {
    var toks := [a, b, c];
    assert forall j :: 0 <= j < |toks| ==> toks[j] !in Mentions(table);
    JoinThree(a, b, c);
  }

  /** `normalize` as a whole is not idempotent either, as long as the table
      mentions neither the name nor the directions involved: `main n s`
      normalises to `south main n`, and normalising that gives
      `south north main`. */
  lemma NormalizeNotIdempotent(w1: string, w2: string, w3: string, table: Table)
    requires IsWord(w1) && IsWord(w2) && IsWord(w3)
    requires Lower(w1) !in Directions && Lower(w2) in Directions && Lower(w3) in Directions
    requires Lower(w1) !in Mentions(table) && Lower(w2) !in Mentions(table)
    requires Expand(Lower(w2)) !in Mentions(table) && Expand(Lower(w3)) !in Mentions(table)
    ensures Normalized(w1 + " " + w2 + " " + w3, table)
      == Expand(Lower(w3)) + " " + Lower(w1) + " " + Lower(w2)
    ensures Normalized(Normalized(w1 + " " + w2 + " " + w3, table), table)
      == Expand(Lower(w3)) + " " + Expand(Lower(w2)) + " " + Lower(w1)
    ensures Normalized(Normalized(w1 + " " + w2 + " " + w3, table), table)
      != Normalized(w1 + " " + w2 + " " + w3, table)
  {
    var l1, l2, l3 := Lower(w1), Lower(w2), Lower(w3);
    var e2, e3 := Expand(l2), Expand(l3);
    ExpandIsDirection(l2);
    ExpandIsDirection(l3);
    MoveDirectionsNotIdempotent(l1, l2, l3);
    NormalizeFirst(w1, w2, w3, table);
    LowerWord(w1);
    LowerWord(w2);
    LowerIdempotent(w1);
    LowerIdempotent(w2);
    FullDirectionWord(e3);
    assert Expand(e3) == e3;
    NormalizeSecond(e3, l1, l2, table);
    FullDirectionWord(e2);
    ThreeWordsDiffer(e3, l1, l2, e2);
  }

  lemma NormalizeFirst(w1: string, w2: string, w3: string, table: Table)
    requires IsWord(w1) && IsWord(w2) && IsWord(w3)
    requires Lower(w1) !in Directions && Lower(w2) in Directions && Lower(w3) in Directions
    requires Lower(w1) !in Mentions(table) && Lower(w2) !in Mentions(table)
    requires Expand(Lower(w3)) !in Mentions(table)
    ensures Normalized(w1 + " " + w2 + " " + w3, table)
      == Expand(Lower(w3)) + " " + Lower(w1) + " " + Lower(w2)
  {
    var l1, l2, l3 := Lower(w1), Lower(w2), Lower(w3);
    MoveDirectionsNotIdempotent(l1, l2, l3);
    calc {
      Normalized(w1 + " " + w2 + " " + w3, table);
      { ThreeWordTokens(w1, w2, w3); }
      Join(Collapse(MoveDirections([l1, l2, l3]), table), " ");
      Join(Collapse([Expand(l3), l1, l2], table), " ");
      { NoQualifierThree(Expand(l3), l1, l2, table); }
      Expand(l3) + " " + l1 + " " + l2;
    }
  }

  /** The second normalisation, starting from the full word of the last
      direction, the name and the first direction, all lower-case. */
  lemma NormalizeSecond(e: string, m: string, d: string, table: Table)
    requires IsWord(e) && IsWord(m) && IsWord(d)
    requires Lower(e) == e && Lower(m) == m && Lower(d) == d
    requires e in Directions && Expand(e) == e && m !in Directions && d in Directions
    requires e !in Mentions(table) && m !in Mentions(table) && Expand(d) !in Mentions(table)
    ensures Normalized(e + " " + m + " " + d, table) == e + " " + Expand(d) + " " + m
  {
    MoveDirectionsNotIdempotent(m, d, e);
    assert [Expand(e), m, d] == [e, m, d];
    assert [Expand(e), Expand(d), m] == [e, Expand(d), m];
    calc {
      Normalized(e + " " + m + " " + d, table);
      { ThreeWordTokens(e, m, d); assert [Lower(e), Lower(m), Lower(d)] == [e, m, d]; }
      Join(Collapse(MoveDirections([e, m, d]), table), " ");
      Join(Collapse([e, Expand(d), m], table), " ");
      { NoQualifierThree(e, Expand(d), m, table); }
      e + " " + Expand(d) + " " + m;
    }
  }

  /** Two space-joined triples of words that differ in the middle differ. */
  lemma ThreeWordsDiffer(a: string, b: string, c: string, b': string)
    requires IsWord(a) && IsWord(b) && IsWord(c) && IsWord(b') && b != b'
    ensures a + " " + b' + " " + b != a + " " + b + " " + c
  {
    JoinThree(a, b, c);
    JoinThree(a, b', b);
    SplitJoin([a, b, c]);
    SplitJoin([a, b', b]);
    assert [a, b, c][1] != [a, b', b][1];
  }

  lemma MoveNameQualifier(l1: string, l2: string, l3: string)
    requires l1 in Directions && l2 !in Directions && l3 !in Directions
    ensures MoveDirections([l1, l2, l3]) == [Expand(l1), l2, l3]
  {
    assert [l1, l2, l3] == [l1, l2] + [l3];
    MovePassesOver([l1, l2], l3);
    assert [l1, l2] == [l1] + [l2];
    MovePassesOver([l1], l2);
    MoveSingle(l1);
  }

  lemma CollapseNameQualifier(e1: string, l2: string, l3: string, table: Table)
    requires l3 in table
    ensures Collapse([e1, l2, l3], table) == [e1 + l2, table[l3]]
  {
    var moved := [e1, l2, l3];
    CollapseAt(moved, table, 2);
    assert moved[..2] == [e1, l2];
    assert Join(moved[..2], "") == e1 + l2;
  }

  // ---------------------------------------------------------------------
  // The imperative normaliser and the address key.

  /** The second loop of `normalize`: fold everything before the rightmost
      qualifier into one word and abbreviate that qualifier. */
  method FoldQualifier(moved: seq<string>, table: Table) returns (tokens: seq<string>)
    ensures tokens == Collapse(moved, table)
  {
    tokens := moved;
    var qualifiers := Mentions(table);
    var i := |tokens|;
    while i > 0
      invariant 0 <= i <= |tokens| && tokens == moved
      invariant forall j :: i <= j < |tokens| ==> tokens[j] !in qualifiers
    {
      i := i - 1;
      if tokens[i] in qualifiers {
        FoldAt(moved, table, i);
        tokens := [Join(tokens[..i], "")] + tokens[i..];
        if tokens[1] in table {
          tokens := tokens[1 := table[tokens[1]]];
        }
        return;
      }
    }
    assert RightmostIn(moved, qualifiers).None?;
  }

  /** `StreetAddress.normalize`, written as the source's two index loops. */
  method Normalize(street: string, table: Table) returns (r: string)
    ensures r == Normalized(street, table)
  {
    var tokens := Split(Strip(Lower(street)));
    ghost var original := tokens;
    var i := |tokens|;
    while i > 0
      invariant 0 <= i <= |tokens| == |original|
      invariant MoveFrom(tokens, i) == MoveDirections(original)
    {
      i := i - 1;
      ghost var before := tokens;
      if tokens[i] in Directions {
        var t := tokens[i];
        tokens := tokens[..i] + tokens[i + 1..];
        if t in Cardinal {
          t := Cardinal[t];
        }
        tokens := [t] + tokens;
      }
      assert tokens == MoveStep(before, i);
    }
    assert tokens == MoveDirections(original);
    tokens := FoldQualifier(tokens, table);
    r := Join(tokens, " ");
  }

  /** The comparable key of an address (`StreetAddress`). */
  datatype StreetAddress = StreetAddress(city: string, street: string, number: string) {

    /** `StreetAddress.tuple`: the key can be rebuilt from it. */
    function Tuple(): (t: (string, string, string))
      ensures StreetAddress(t.0, t.1, t.2) == this
    {
      (city, street, number)
    }
  }

  /** Two keys are equal exactly when their tuples are (the source compares
      tuple hashes; collisions are not modelled). */
  lemma KeysEqualIffTuplesEqual(a: StreetAddress, b: StreetAddress)
    ensures a == b <==> a.Tuple() == b.Tuple()
  {
  }

  /** `StreetAddress(city, st, nr)` as a value: the city is kept as given,
      the number never grows and is kept as given when it has no `/`, and
      a blank street gives the empty street. */
  function AddressOf(city: string, st: string, nr: string, table: Table): (a: StreetAddress)
    ensures a.city == city
    ensures |a.number| <= |nr| && ('/' !in nr ==> a.number == nr)
    ensures Tokens(st) == [] ==> a.street == ""
  {
    StreetAddress(city, Normalized(st, table), HalfSub(nr))
  }

  /** `StreetAddress.__init__` (common.py, lines 11-14). */
  method NewStreetAddress(city: string, st: string, nr: string, table: Table) returns (a: StreetAddress)
    ensures a == AddressOf(city, st, nr, table)
  {
    var street := Normalize(st, table);
    a := StreetAddress(city, street, HalfSub(nr));
  }
}

=== FILE: Text.dfy ===
/** The pieces of Python's `str` the repository relies on: lower-casing,
    stripping, splitting on whitespace, joining and substring search.
    Only the ASCII subset of whitespace and case mapping is modelled. */
module Text {

  /** Python's `str.isspace()` on ASCII characters. */
  predicate IsSpace(c: char) {
    c == ' ' || '\t' <= c <= '\r' || '\U{1C}' <= c <= '\U{1F}'
  }

  predicate IsDigit(c: char) {
    '0' <= c <= '9'
  }

  function LowerChar(c: char): char {
    if 'A' <= c <= 'Z' then (c as int + 32) as char else c
  }

  /** `str.lower()`. */
  function Lower(s: string): (r: string)
    ensures |r| == |s|
    ensures forall i :: 0 <= i < |s| ==> r[i] == LowerChar(s[i])
  {
    seq(|s|, i requires 0 <= i < |s| => LowerChar(s[i]))
  }

  /** Drops the leading whitespace (`str.lstrip()`). */
  function TrimLeft(s: string): (r: string)
    ensures |r| <= |s|
    ensures r != [] ==> !IsSpace(r[0])
  {
    if s != [] && IsSpace(s[0]) then TrimLeft(s[1..]) else s
  }

  /** Drops the trailing whitespace (`str.rstrip()`). */
  function TrimRight(s: string): (r: string)
    ensures |r| <= |s|
  {
    if s != [] && IsSpace(s[|s| - 1]) then TrimRight(s[..|s| - 1]) else s
  }

  /** `str.strip()`: neither end of the result is whitespace, and the result
      is empty exactly when `s` is blank. */
  function Strip(s: string): (r: string)
    ensures |r| <= |s|
    ensures r != [] ==> !IsSpace(r[0]) && !IsSpace(r[|r| - 1])
    ensures r == [] <==> forall i :: 0 <= i < |s| ==> IsSpace(s[i])
  {
    TrimBothEnds(s);
    TrimRight(TrimLeft(s))
  }

  /** `lstrip` drops only leading whitespace: what it keeps is a suffix. */
  lemma {:induction false} TrimLeftSuffix(s: string)
    ensures TrimLeft(s) == s[|s| - |TrimLeft(s)|..]
    ensures forall i :: 0 <= i < |s| - |TrimLeft(s)| ==> IsSpace(s[i])
  {
    if s != [] && IsSpace(s[0]) {
      TrimLeftSuffix(s[1..]);
    }
  }

  /** `rstrip` drops only trailing whitespace: what it keeps is a prefix
      that does not end with whitespace. */
  lemma {:induction false} TrimRightPrefix(s: string)
    ensures var r := TrimRight(s);
      r == s[..|r|] && (r != [] ==> !IsSpace(r[|r| - 1])) &&
      forall i :: |r| <= i < |s| ==> IsSpace(s[i])
  {
    if s != [] && IsSpace(s[|s| - 1]) {
      TrimRightPrefix(s[..|s| - 1]);
    }
  }

  lemma TrimBothEnds(s: string)
    ensures var r := TrimRight(TrimLeft(s));
      (r != [] ==> !IsSpace(r[0]) && !IsSpace(r[|r| - 1])) && (r == [] <==> forall i :: 0 <= i < |s| ==> IsSpace(s[i]))
  {
    var t := TrimLeft(s);
    var r := TrimRight(t);
    TrimLeftSuffix(s);
    TrimRightPrefix(t);
    if t != [] {
      assert !IsSpace(t[0]);
      assert r != [];
      assert r[0] == t[0];
      assert s[|s| - |t|] == t[0];
    }
  }

  /** Length of the run of non-whitespace characters that starts `s`. */
  function WordLength(s: string): (k: nat)
    ensures k <= |s|
    ensures forall i :: 0 <= i < k ==> !IsSpace(s[i])
    ensures k < |s| ==> IsSpace(s[k])
  {
    if s != [] && !IsSpace(s[0]) then 1 + WordLength(s[1..]) else 0
  }

  /** A token `str.split()` can produce: non-empty, without whitespace. */
  predicate IsWord(w: string) {
    w != [] && forall i :: 0 <= i < |w| ==> !IsSpace(w[i])
  }

  /** `str.split()` with no separator: the maximal whitespace-free runs, in order. */
  function Split(s: string): (ws: seq<string>)
    ensures forall k :: 0 <= k < |ws| ==> IsWord(ws[k])
    decreases |s|
  {
    var t := TrimLeft(s);
    if t == [] then []
    else
      var k := WordLength(t);
      [t[..k]] + Split(t[k..])
  }

  /** `sep.join(ws)`: empty for no strings. */
  function Join(ws: seq<string>, sep: string): (r: string)
    ensures ws == [] ==> r == ""
  {
    if |ws| == 0 then ""
    else if |ws| == 1 then ws[0]
    else ws[0] + sep + Join(ws[1..], sep)
  }

  /** A joined string starts with the first string and ends with the last. */
  lemma {:induction false} JoinEnds(ws: seq<string>, sep: string)
    requires ws != []
    ensures var r, l := Join(ws, sep), ws[|ws| - 1];
      |ws[0]| <= |r| && r[..|ws[0]|] == ws[0] && |l| <= |r| && r[|r| - |l|..] == l
  {
    if |ws| > 1 {
      JoinEnds(ws[1..], sep);
      assert ws[1..][|ws| - 2] == ws[|ws| - 1];
    }
  }

  predicate OccursAt(s: string, pat: string, i: int) {
    0 <= i && i + |pat| <= |s| && s[i..i + |pat|] == pat
  }

  /** The `in` operator on strings. */
  function Contains(s: string, pat: string): (b: bool)
    ensures b <==> exists i :: OccursAt(s, pat, i)
    decreases |s|
  {
    if |s| < |pat| then false
    else if s[..|pat|] == pat then (assert OccursAt(s, pat, 0); true)
    else
      var b := Contains(s[1..], pat);
      assert forall i :: OccursAt(s[1..], pat, i) <==> OccursAt(s, pat, i + 1) by {
        forall i ensures OccursAt(s[1..], pat, i) <==> OccursAt(s, pat, i + 1) {
          if 0 <= i && i + |pat| <= |s| - 1 {
            assert s[1..][i..i + |pat|] == s[i + 1..i + 1 + |pat|];
          }
        }
      }
      assert !OccursAt(s, pat, 0);
      assert b ==> exists i :: OccursAt(s, pat, i) by {
        if b { var i :| OccursAt(s[1..], pat, i); assert OccursAt(s, pat, i + 1); }
      }
      assert (exists i :: OccursAt(s, pat, i)) ==> b by {
        if exists i :: OccursAt(s, pat, i) {
          var i :| OccursAt(s, pat, i);
          assert i != 0;
          assert OccursAt(s[1..], pat, i - 1);
        }
      }
      b
  }

  /** Lower-casing twice is lower-casing once. */
  lemma LowerIdempotent(s: string)
    ensures Lower(Lower(s)) == Lower(s)
  {
  }

  /** Lower-casing works character by character. */
  lemma LowerAppend(a: string, b: string)
    ensures Lower(a + b) == Lower(a) + Lower(b)
  {
  }

  /** A leading whitespace character never changes what `split()` returns. */
  lemma SplitSkipsLeadingSpace(c: char, s: string)
    requires IsSpace(c)
    ensures Split([c] + s) == Split(s)
  {
    assert ([c] + s)[1..] == s;
    assert TrimLeft([c] + s) == TrimLeft(s);
  }

  lemma TrimLeftAppend(s: string, c: char)
    ensures TrimLeft(s + [c]) == if TrimLeft(s) == [] then TrimLeft([c]) else TrimLeft(s) + [c]
    decreases |s|
  {
    if s != [] {
      assert (s + [c])[1..] == s[1..] + [c];
      if IsSpace(s[0]) {
        TrimLeftAppend(s[1..], c);
      }
    }
  }

  lemma WordLengthAppend(s: string, c: char)
    requires IsSpace(c)
    ensures WordLength(s + [c]) == WordLength(s)
  {
    if s != [] {
      assert (s + [c])[1..] == s[1..] + [c];
      if !IsSpace(s[0]) {
        WordLengthAppend(s[1..], c);
      }
    } else {
      assert WordLength([c]) == 0;
    }
  }

  /** A trailing whitespace character never changes what `split()` returns. */
  lemma {:induction false} SplitSkipsTrailingSpace(s: string, c: char)
    requires IsSpace(c)
    ensures Split(s + [c]) == Split(s)
    decreases |s|
  {
    TrimLeftAppend(s, c);
    var t := TrimLeft(s);
    if t == [] {
      assert TrimLeft([c]) == TrimLeft([c][1..]) == [];
      assert TrimLeft(s + [c]) == [];
    } else {
      var k := WordLength(t);
      WordLengthAppend(t, c);
      var t' := t + [c];
      assert TrimLeft(s + [c]) == t';
      assert 0 < k;
      assert t'[..k] == t[..k];
      assert t'[k..] == t[k..] + [c];
      SplitSkipsTrailingSpace(t[k..], c);
      assert Split(s + [c]) == [t'[..k]] + Split(t'[k..]);
      assert Split(s) == [t[..k]] + Split(t[k..]);
    }
  }

  lemma {:induction false} SplitTrimRight(s: string)
    ensures Split(TrimRight(s)) == Split(s)
    decreases |s|
  {
    if s != [] && IsSpace(s[|s| - 1]) {
      var p := s[..|s| - 1];
      SplitTrimRight(p);
      assert s == p + [s[|s| - 1]];
      SplitSkipsTrailingSpace(p, s[|s| - 1]);
    }
  }

  /** Stripping before splitting makes no difference: `s.strip().split() == s.split()`. */
  lemma SplitStrip(s: string)
    ensures Split(Strip(s)) == Split(s)
  {
    var t := TrimLeft(s);
    SplitTrimRight(t);
    assert TrimLeft(t) == t;
  }

  /** A blank or whitespace-only string splits into no tokens. */
  lemma SplitBlank(s: string)
    requires forall i :: 0 <= i < |s| ==> IsSpace(s[i])
    ensures Split(s) == []
  {
  }

  /** `' '.join` of whitespace-free non-empty tokens splits back into the same tokens. */
  lemma {:induction false} SplitJoin(ws: seq<string>)
    requires forall k :: 0 <= k < |ws| ==> IsWord(ws[k])
    ensures Split(Join(ws, " ")) == ws
  {
    if |ws| == 0 {
    } else {
      var w := ws[0];
      var rest := if |ws| == 1 then "" else " " + Join(ws[1..], " ");
      assert Join(ws, " ") == w + rest;
      var s := w + rest;
      assert TrimLeft(s) == s;
      var k := WordLength(s);
      assert |w| < |s| ==> s[|w|] == ' ';
      assert k == |w|;
      assert s[..k] == w;
      assert s[k..] == rest;
      if |ws| == 1 {
        assert Split(rest) == [];
      } else {
        SplitJoin(ws[1..]);
        SplitSkipsLeadingSpace(' ', Join(ws[1..], " "));
      }
    }
  }

  /** The characters of `s` that are not whitespace, in order. */
  function NonSpaces(s: string): string {
    if s == [] then [] else (if IsSpace(s[0]) then [] else [s[0]]) + NonSpaces(s[1..])
  }

  lemma {:induction false} NonSpacesAppend(a: string, b: string)
    ensures NonSpaces(a + b) == NonSpaces(a) + NonSpaces(b)
  {
    if a != [] {
      assert (a + b)[1..] == a[1..] + b;
      NonSpacesAppend(a[1..], b);
    } else {
      assert a + b == b;
    }
  }

  lemma {:induction false} NonSpacesOfBlank(s: string)
    requires forall i :: 0 <= i < |s| ==> IsSpace(s[i])
    ensures NonSpaces(s) == []
  {
    if s != [] {
      NonSpacesOfBlank(s[1..]);
    }
  }

  lemma {:induction false} NonSpacesOfWord(w: string)
    requires forall i :: 0 <= i < |w| ==> !IsSpace(w[i])
    ensures NonSpaces(w) == w
  {
    if w != [] {
      NonSpacesOfWord(w[1..]);
      assert w == [w[0]] + w[1..];
    }
  }

  /** Leading whitespace contributes nothing to `NonSpaces`. */
  lemma NonSpacesTrimLeft(s: string)
    ensures NonSpaces(TrimLeft(s)) == NonSpaces(s)
  {
    var t := TrimLeft(s);
    var j := |s| - |t|;
    TrimLeftSuffix(s);
    assert s == s[..j] + t;
    NonSpacesOfBlank(s[..j]);
    NonSpacesAppend(s[..j], t);
  }

  /** A string that starts with a word: the word, then what follows. */
  lemma NonSpacesLeadingWord(t: string)
    ensures var k := WordLength(t); NonSpaces(t) == t[..k] + NonSpaces(t[k..])
  {
    var k := WordLength(t);
    assert t == t[..k] + t[k..];
    NonSpacesAppend(t[..k], t[k..]);
    NonSpacesOfWord(t[..k]);
  }

  /** `split()` loses and reorders no character other than whitespace: the
      tokens glued together are the non-whitespace characters of `s`. */
  lemma {:induction false} SplitKeepsText(s: string)
    ensures Join(Split(s), "") == NonSpaces(s)
    decreases |s|
  {
    var t := TrimLeft(s);
    NonSpacesTrimLeft(s);
    if t != [] {
      var k := WordLength(t);
      var w, rest := t[..k], t[k..];
      SplitKeepsText(rest);
      NonSpacesLeadingWord(t);
      calc {
        Join(Split(s), "");
        Join([w] + Split(rest), "");
        { ConcatAppend([w], Split(rest)); }
        w + Join(Split(rest), "");
        w + NonSpaces(rest);
        NonSpaces(s);
      }
    }
  }

  /** `''.join` distributes over concatenation of the token lists. */
  lemma {:induction false} ConcatAppend(a: seq<string>, b: seq<string>)
    ensures Join(a + b, "") == Join(a, "") + Join(b, "")
  {
    if a == [] {
      assert a + b == b;
    } else if |a| == 1 {
      if b == [] {
        assert a + b == a;
      } else {
        assert (a + b)[1..] == b;
      }
    } else {
      assert (a + b)[1..] == a[1..] + b;
      ConcatAppend(a[1..], b);
    }
  }
}
